=== FILE: README.md ===
# technopark-dbms core in Dafny

This project models the core of the technopark-dbms forum service. The service is a Go
program that keeps users, forums, threads, posts and votes in PostgreSQL. The model covers:

- the post repository: the batch INSERT builder, the three post listings (flat, tree and
  parent tree) over materialised paths, and post details with related objects;
- the votes repository, and the thread service's vote accounting on top of it;
- the user repository: lookups, the email-or-nickname query and the partial profile update;
- the forum repository: the forum-users and forum-threads query builders;
- the thread and post services: slug-or-id resolution, creating threads and posts, and the
  sort-mode dispatch;
- the error taxonomy (`CodedError`, `wrapErr`).

The store is one immutable value (`Entities.Store`). Users, forums, threads and posts are
sequences of rows, and the votes table is a map from (nickname, thread) to voice. Each SQL
statement becomes a pure function over that value:

- a single-row query is a search for the first matching row;
- a listing is filter, then order, then take (`PostStore.Listing`);
- an UPDATE or INSERT returns the new table, except the batch insert of posts, which
  returns only the posts it answers with.

`time.Now()` becomes an abstract `nat` argument. The ids that `RETURNING id` yields are an
argument too (`PostStore.InsertReply`), as is the id the threads table assigns.

The post repository never reads a result set's deferred error (`rows.Err()`). An error that
PostgreSQL raises while executing a listing or the batch INSERT therefore reaches no caller.
The model follows the code: a negative LIMIT lists nothing and is answered 200, and an INSERT
the database refuses is answered 201 with every post at id 0.

Library behaviour the core depends on is modelled explicitly:

- `strconv.Atoi` on 64-bit integers and `%d` formatting (`Text.Atoi`, `Text.FormatInt`);
- `strings.Split` on one character (`Text.Split`);
- PostgreSQL `TRIM` (`Text.Trim`);
- lexicographic comparison of integer arrays (`Paths.PathLt`);
- quoted SQL literals (`ForumStore.ReadQuoted`).

The query builders are modelled as text. Each comes with a reader that parses the text back
into the request it encodes, and round-trip lemmas relate the two.

Files, one module each: `wrappers.dfy`, `seqs.dfy`, `text.dfy`, `errors.dfy`, `entities.dfy`,
`paths.dfy`, `sorting.dfy`, `post_store.dfy`, `vote_store.dfy`, `user_store.dfy`,
`forum_store.dfy`, `thread_store.dfy`, `thread_service.dfy`, `post_service.dfy`.

## Model

| member | source | states |
|---|---|---|
| Errors.NewCodedError | internal/constants/errors.go:22-24 | the constructed error carries 404 whatever code is passed, and its text is the given message |
| Errors.NewCodedErrorIgnoresCode | internal/constants/errors.go:22-24 | two calls that differ only in the code argument build the same error, with status 404 |
| Errors.SentinelCodes | internal/constants/errors.go:26-32 | the not-found sentinel reports 404 and the user-exists sentinel 409 |
| Errors.WrapErr | internal/db/common.go:10-16 | no-rows becomes the not-found sentinel; nil and every other error pass unchanged; the result is never no-rows |
| Errors.WrapErrIdempotent | internal/db/common.go:10-16 | wrapping twice equals wrapping once, and a wrapped error is not-found exactly when the input was no-rows or already not-found |
| Errors.NotFoundError | internal/db/common.go:11-13 | the error a failed single-row lookup reports is no-rows passed through `wrapErr`, and it is not-found |
| Text.Atoi | internal/services/thread.go:68 | a parse succeeds exactly on one optional sign followed by a non-empty run of digits whose signed value fits in 64 bits, and then yields that value; the empty string never parses |
| Text.AtoiFormatInt | internal/services/thread.go:82 | every 64-bit id printed with `%d` parses back to itself, so an id in a 404 message names the id that was looked up |
| Text.Split | internal/db/post.go:210 | the pieces contain no separator and join back to the input |
| Text.SplitJoin | internal/db/post.go:210 | splitting a join of separator-free pieces recovers the pieces |
| Text.Trim | internal/db/user.go:17 | the result has no edge spaces, and it is empty exactly when the input is all spaces |
| Text.TrimPadded | internal/db/user.go:17 | trimming any spaces around a string without edge spaces yields that string |
| Paths.PathLtTransitive | internal/db/post.go:132-135 | the array order on paths is transitive |
| Paths.PathLtTotal | internal/db/post.go:132-135 | any two paths are equal or ordered one way or the other |
| Paths.PrefixPrecedes | internal/db/post.go:132-135 | an ancestor's path sorts strictly before every proper extension of it |
| Paths.PrefixBetween | internal/db/post.go:132-135 | a path that sorts between a path and one of its extensions extends that path too |
| Sorting.SortBy | internal/db/post.go:88-92 | the rows come back in ascending key order, and they are a permutation of the input |
| Sorting.Arrange | internal/db/post.go:88-92 | the rows come back in the requested direction, as a permutation of the input with the same members |
| Sorting.TakeOrdered | internal/db/post.go:94 | LIMIT keeps the order, and every row it cuts off comes after every row it keeps |
| PostStore.RowTuples | internal/db/post.go:44-48 | row i of the VALUES list uses placeholders $6i+1 through $6i+6 |
| PostStore.BatchArgs | internal/db/post.go:50 | there are six arguments per post, and arguments 6i..6i+5 are post i's parent, author and message, then the forum, the thread and the insert time |
| PostStore.BuildInsert | internal/db/post.go:38-54 | the statement is the head, the comma-separated row tuples with exactly the last comma dropped, and ` RETURNING id;`; the arguments are the batch arguments |
| PostStore.CreatePosts | internal/db/post.go:38-69 | one post per input, in input order, with its input's fields, the given forum and thread, and one shared time; the k-th returned id goes to the k-th post and a post with no returned id keeps id 0; an error from sending the statement is passed through, while a refusal on execution arrives as no ids |
| PostStore.CheckParentPost | internal/db/post.go:71-75 | fails exactly when no post has the id, with the raw no-rows error (not not-found); otherwise gives the thread of a post with that id |
| PostStore.Listing | internal/db/post.go:77-118 | at most n matching store rows, none more often than the store holds it, ordered, and the first n in that order; when fewer than n come back, none was left out |
| PostStore.GetPostsFlat | internal/db/post.go:77-118 | posts of the thread strictly past the cursor id, never the cursor itself, ordered by (created, id) in the requested direction, at most `limit`, none repeated beyond the store's copies; limit 0 gives nothing, and a negative limit gives an empty page with no error because the execution error is never read |
| PostStore.GetPostsTree | internal/db/post.go:120-156 | posts of the thread whose path is strictly past the cursor's path, in path order or its reverse, none repeated beyond the store's copies; limit 0 means no limit; a negative limit gives an empty page with no error; a cursor that names no post admits nothing |
| PostStore.BranchRoots | internal/db/post.go:161-189 | at most `limit` top-level posts of the thread past the cursor's branch root, the first by id in the requested direction, none repeated beyond the store's copies |
| PostStore.GetPostsParentTree | internal/db/post.go:158-206 | exactly the store posts whose branch root was chosen, each as often as the store holds it, none split off, in path order ascending or by branch descending and then path; a negative limit gives an empty page with no error |
| PostStore.DescendantExtendsPath | internal/db/post.go:125-135 | in a store where each path is the parent's path plus the post's own id, a descendant's path extends its ancestor's |
| PostStore.SubtreesContiguous | internal/db/post.go:132-135 | in a listing in path order, everything between a post and one of its descendants is in that post's subtree, and descendants come after their ancestors |
| PostStore.DescendantsFollow | internal/db/post.go:132-135 | in a path-ordered listing from a well-formed store, a descendant comes after its ancestor, with only the ancestor's subtree in between |
| PostStore.TreeListingIsPreOrder | internal/db/post.go:120-156 | the uncursored ascending unlimited tree listing of a thread is exactly the thread's posts, as a pre-order walk |
| PostStore.ParentTreePageKeepsSubtreesTogether | internal/db/post.go:158-206 | in a parent-tree page, in either direction, each post's subtree is contiguous, and a post whose path properly extends another's comes after it |
| PostStore.Attach | internal/db/post.go:210-237 | each of "user", "thread" and "forum" attaches its object exactly when present; other tokens are ignored; the first failing join aborts with not-found |
| PostStore.GetPostDetails | internal/db/post.go:208-248 | succeeds exactly when the post exists and every requested join succeeds; the post is always fetched; an object is attached exactly when its token is present; any failure is not-found |
| PostStore.AttachAsWritten | internal/db/post.go:19-21 | as written, the token loop fails exactly when some token asks for a related object, with the store's missing-alias error |
| PostStore.GetPostDetailsAsWritten | internal/db/post.go:208-248 | as written, any related token gives the missing-alias error, which is not not-found; without one it agrees with the intended version |
| PostStore.AsWrittenDetailsFailForExistingAuthor | internal/db/post.go:19 | for a post whose author exists, `related=user` succeeds with the intended join and fails as written |
| VoteStore.SelectVoice | internal/db/vote.go:14 | a row exactly when the pair has voted, carrying the stored voice; otherwise no-rows |
| VoteStore.ExistsFromRow | internal/db/vote.go:33-43 | a row reads as true, no-rows as false, and any other error is passed on |
| VoteStore.VoteExists | internal/db/vote.go:33-43 | true exactly when (nickname, thread) has a vote; the ledger is only read |
| VoteStore.ExecUpdateVote | internal/db/vote.go:15 | one row changes exactly when the pair has a different voice, to the new voice; no other vote changes and no key appears |
| VoteStore.UpdateVote | internal/db/vote.go:45-51 | reports a change exactly when the stored voice differed; with the same voice the ledger is unchanged |
| VoteStore.ExecCreateVote | internal/db/vote.go:13 | inserts exactly when the pair has no vote yet and leaves other votes alone; a second vote is the unique-key error |
| VoteStore.CreateVote | internal/db/vote.go:28-31 | stores the voice exactly when the pair had none; the error passes through `wrapErr` and is not not-found |
| VoteStore.TallyAfterStore | internal/db/vote.go:13-15 | storing a voice moves the thread's voice sum by the new voice minus the old one (0 for a first vote), and no other thread's sum moves |
| VoteStore.FlipMovesTallyByTwice | internal/services/thread.go:100-105 | re-voting with the other voice in {-1, +1} moves the thread's voice sum by twice the new voice |
| UserStore.GetUserByNickname | internal/db/user.go:45-49 | the user with that nickname, or not-found exactly when none has it |
| UserStore.GetUserByEmail | internal/db/user.go:39-43 | the user with that email, or not-found exactly when none has it |
| UserStore.GetUsersByEmailOrNickname | internal/db/user.go:51-68 | exactly the users whose email or nickname matches, and no error when none does |
| UserStore.MergeField | internal/db/user.go:17 | a blank input keeps the current value; any other input stores its trimmed text, which is non-empty and has no edge spaces |
| UserStore.MergeFieldPadded | internal/db/user.go:17 | a value sent with surrounding spaces is stored without them |
| UserStore.MergeFieldIdempotent | internal/db/user.go:17 | applying the same update twice leaves what the first application left |
| UserStore.MergeFieldResend | internal/db/user.go:17 | resending the stored value changes nothing |
| UserStore.MergeUser | internal/db/user.go:17 | the nickname never changes, and each of fullname, about and email is merged on its own |
| UserStore.UpdateUser | internal/db/user.go:70-76 | not-found exactly when no row has the nickname; otherwise only that nickname's rows change, and the answer is the request's nickname with the updated fields |
| UserStore.BlankUpdateChangesNothing | internal/db/user.go:17 | an update whose fields are all blank leaves the table unchanged |
| ForumStore.GetForumBySlug | internal/db/forum.go:36-40 | the forum with that slug, or not-found exactly when none has it |
| ForumStore.ConsumePrefix | internal/db/forum.go:111-127 | a prefix is consumed from a text that starts with it, leaving the rest |
| ForumStore.ReadEscaped | internal/db/forum.go:115-117 | an escaped value followed by a closing quote reads back as exactly that value |
| ForumStore.ForumUsersQueryRoundTrip | internal/db/forum.go:111-127 | the users query with the cursor escaped reads back as the request: `<` when descending, `>` otherwise, none for an empty cursor; the nickname order; the direction; the limit, even 0 |
| ForumStore.AsWrittenAgreesWithoutQuotes | internal/db/forum.go:111-127 | without an apostrophe in the cursor, the query as written equals the escaped one |
| ForumStore.AsWrittenMisreadsQuote | internal/db/forum.go:115-117 | as written, a cursor whose first apostrophe is followed by another character that is not an apostrophe (as in O'Hara) does not read back as the requested query |
| ForumStore.AsWrittenMisreadsOHara | internal/db/forum.go:117 | as written, the cursor O'Hara is misread |
| ForumStore.AsWrittenClausesFollowTerminator | internal/db/forum.go:16 | as written, the bound and the ORDER BY clause come after a semicolon |
| ForumStore.ReadThreadsOrderRoundTrip | internal/db/forum.go:68-74 | the order clause reads back as the direction, with the limit only when it is positive |
| ForumStore.ReadThreadsClausesRoundTrip | internal/db/forum.go:68-89 | the clauses read back as the bound (`<=` when descending, `>=` otherwise, none for an empty cursor), the direction and the limit |
| ForumStore.ForumThreadsQueryRoundTrip | internal/db/forum.go:62-89 | the threads query with its clauses inside the statement reads back as the request |
| ForumStore.ScanIntoOneRecord | internal/db/forum.go:95-102 | as written, every element of the list is the last row |
| ForumStore.ScanIntoOneRecordLosesRows | internal/db/forum.go:50-56 | as written, two different rows come back as two copies of the second |
| ForumStore.ScanRows | internal/db/forum.go:50-56 | with a fresh record per row, the list is the rows in order |
| ThreadStore.GetForumThreadBySlug | internal/db/thread.go:32-37 | the thread with that slug, or not-found exactly when none has it |
| ThreadStore.GetForumThreadByID | internal/services/thread.go:80-84 | the thread with that id, or not-found exactly when none has it |
| ThreadStore.CreateForumThread | internal/db/thread.go:25-30 | the table gains exactly the new row, with the assigned id and no votes; some row has that id afterwards, and when the id was fresh, as a serial id is, the lookup by it finds exactly the inserted row |
| ThreadService.ResolveThread | internal/services/thread.go:65-85 | a numeric segment resolves by id and anything else by slug; it resolves exactly when such a thread exists; otherwise the answer is 404 naming the key |
| ThreadService.ResolveByIdOrSlug | internal/services/thread.go:123-143 | a thread is found by the decimal spelling of its id, and by its slug when the slug is not a number |
| ThreadService.GetThreadDetails | internal/services/thread.go:123-144 | 200 with the resolved thread exactly when it resolves, otherwise 404 with a message |
| ThreadService.CreateForumThread | internal/services/thread.go:29-63 | 404 for a missing author or forum; 409 with the existing thread when a non-empty slug is taken; otherwise 201 with a new row under the canonical author and forum, no votes, and the table grows only then |
| ThreadService.SecondCreateConflicts | internal/services/thread.go:46-54 | creating the same slugged thread again answers 409 and does not insert |
| ThreadService.CastVote | internal/services/thread.go:95-120 | the ledger ends with the voice stored under the key; the counter moves by the voice for a first vote, by twice the voice for a changed vote and not at all for a repeat |
| ThreadService.UpdateVote | internal/services/thread.go:65-121 | a missing thread or user is 404 with the ledger untouched; otherwise the vote is stored under the user's canonical nickname and the thread is answered with 200 |
| ThreadService.CastVoteKeepsTally | internal/services/thread.go:100-118 | with voices in {-1, +1}, if the stored counter was the sum of the thread's voices, the answered counter is the sum afterwards |
| ThreadService.RepeatedVoteIsIdempotent | internal/services/thread.go:100-118 | casting the same voice twice leaves the ledger as the first cast left it and answers the same thread |
| ThreadService.ChangedVoteMovesCounterByTwice | internal/services/thread.go:100-104 | changing a stored voice answers the counter moved by twice the new voice |
| ThreadService.UpdateVoteKeepsTally | internal/services/thread.go:65-121 | with every thread's counter equal to its voice sum, the thread a vote is answered with has its counter equal to the new sum |
| PostService.CreatePosts | internal/services/post.go:28-77 | 404 when the thread does not resolve; 201 empty for an empty batch; raw no-rows for a missing first parent; 409 exactly when the first parent is a post of another thread; 404 whenever the first author is unknown and the parent checks pass; otherwise 201 with one post per entry in the resolved thread and its forum, carrying the k-th returned id or 0 |
| PostService.RefusedInsertAnswersCreated | internal/db/post.go:56-68 | an INSERT the database refuses on execution, after the first entry's checks pass, is answered 201 with every post at id 0 |
| PostService.OnlyFirstEntryIsChecked | internal/services/post.go:54-69 | two batches of the same length with the same first entry get the same kind of answer |
| PostService.ParseSort | internal/services/post.go:98-107 | "tree" and "parent_tree" select those modes, and every other value the flat listing |
| PostService.LookupForListing | internal/services/post.go:80-96 | the slug-then-id lookup answers as the one-step resolution: the resolved thread's id exactly when it resolves, otherwise the same 404 answer |
| PostService.GetPosts | internal/services/post.go:79-113 | 404 as the one-step resolution answers it, or the resolved thread's listing in the chosen mode with 200; a negative limit is answered 200 with an empty list |
| PostService.UnknownSortIsFlat | internal/services/post.go:105-106 | an unknown sort value lists exactly as "flat" |
| PostService.ListingStaysInThread | internal/services/post.go:98-107 | a listing holds only store posts, none more often than the store holds it; in the flat and tree modes, only posts of the resolved thread |

## Left out

- The HTTP layer, bootstrap and wiring are not modelled, because they are plumbing. That covers controllers, routing, JSON binding, configuration and the registries.
- internal/services/user.go and internal/services/forum.go are not modelled. They only check that a row exists and then delegate.
- `CreateUser`, `CreateForum`, and the TRUNCATE and COUNT statements are not modelled. Each is a single-statement pass-through.
- Path computation is not modelled, because no modelled code computes `path`. Its invariant (a top-level post's path is its id; a reply's path is its parent's path plus its own id) is the precondition `PostStore.TreeShaped`.
- Error paths that are neither a success nor not-found are not modelled. On such a store failure the services continue with a nil thread or user. In the model a lookup can only succeed or report not-found.
- Nothing in the modelled code writes a thread's stored `votes` counter: the vote paths only change the copy they answer with. Keeping the stored counter equal to the voice sum is left to the database (presumably a trigger), so `ThreadService.CastVoteKeepsTally` and `ThreadService.UpdateVoteKeepsTally` take that equality as a hypothesis.
- The race between `VoteExists` and the following `UpdateVote` or `CreateVote` is not modelled. Every store call is atomic and sequential.
- Integer width is not modelled. Counters and ids are unbounded, so the int64 overflow of `votes` is not represented. `Atoi` does model the 64-bit range.
- Case-insensitive (citext) comparison of nicknames and slugs is not modelled. Every comparison is exact equality.
- The store's ordering of rows with equal keys is not modelled. A descending listing is the reverse of the ascending one, which is one of the orders the store may return. The descending tree order has no id tiebreak, and this choice is one valid resolution of it.
- `PostStore.CreatePosts` requires no more returned ids than posts. With more ids the Go code would index past its slice.
- The id and time an INSERT assigns are arguments, not computed. The thread insert is assumed to succeed; the votes column defaults to 0; the unique key on votes is (nickname, thread).
- Unknown tokens in `related` are skipped, and an empty `related` string attaches nothing.
- The threads query joins `forum` (the table as written) rather than `forums`. The query builder keeps the name, and which table exists is outside the model.
- Errors from sending or preparing a listing statement, such as a lost connection, are not modelled. The listings return their page directly.
- `GetPostsParentTree` passes its limit verbatim. Limit 0 therefore picks no branch root and the page is empty.
- ThreadService.CreateForumThread: does not model the store error when the slug lookup fails otherwise than not-found (internal/services/thread.go:48-50), because lookups here cannot fail that way.
- PostService.CreatePosts: requires no more returned ids than posts, as the store layer does.
- PostStore.CreatePosts / PostService.CreatePosts: the inserted rows are not added back to the store's posts, because their materialised paths are computed by the database, outside the modelled code. The model states what the service answers, not the posts table afterwards.
- Sentinel errors are compared by value, where Go's `errors.Is` compares `*CodedError` pointers. A freshly built `NewCodedError("Not found in db", c)` would count as not-found here but not in Go; no modelled path builds such a value.

## Findings

| source | as written | input that shows it | evidently intended | confidence | as-written member | corrected member |
|---|---|---|---|---|---|---|
| internal/db/forum.go:115-117 | `since` is pasted between single quotes without escaping | `since = "O'Hara"`: the literal closes after `O` | the cursor compares with the whole nickname, with quotes doubled or passed as an argument | high, not executed | ForumStore.AsWrittenMisreadsQuote | ForumStore.ForumUsersQueryRoundTrip |
| internal/db/forum.go:16,84-87 | the base statement ends in `;`, and the bound and ORDER BY are appended after it | any call, e.g. `since = ""`, `limit = 0`: `...WHERE f.slug = $1;ORDER BY t.created ` | the clauses inside the statement, before the terminator | high, not executed | ForumStore.AsWrittenClausesFollowTerminator | ForumStore.ForumThreadsQueryRoundTrip |
| internal/db/forum.go:50-56 | one record is allocated before the row loop, and the same pointer is appended for every row | two users `a` and `b` are listed as `[b, b]` | a fresh record per row | high, not executed | ForumStore.ScanIntoOneRecordLosesRows | ForumStore.ScanRows |
| internal/db/post.go:19-21 | the related-object joins read `FROM posts` but qualify columns with `post`, which is never declared | a post by existing user `ann` with `related=user` fails with a store error | `FROM posts post JOIN ...` | high, not executed | PostStore.AsWrittenDetailsFailForExistingAuthor | PostStore.GetPostDetails |

=== FILE: entities.dfy ===
/** The records of the forum service (the `core` and `dto` types) and the store that holds them. */
module Entities {
  import opened Wrappers

  datatype User = User(nickname: string, fullname: string, about: string, email: string)

  datatype Forum = Forum(title: string, user: string, slug: string, posts: int, threads: int)

  /** A thread; `votes` is the cached sum of the voices cast on it, `created` an abstract instant. */
  datatype Thread = Thread(
    id: int, title: string, author: string, forum: string, message: string,
    votes: int, slug: string, created: nat)

  /** A post row. `path` is the materialised path: the ids from the branch root down to the
      post itself. `parent == 0` marks a top-level post. */
  datatype Post = Post(
    id: int, parent: int, author: string, message: string, isEdited: bool,
    forum: string, thread: int, created: nat, path: seq<int>)

  /** One entry of a create-posts request. */
  datatype PostData = PostData(parent: int, author: string, message: string)

  datatype Vote = Vote(nickname: string, thread: int, voice: int)

  /** The votes table: one voice per (nickname, thread). */
  type Ledger = map<(string, int), int>

  /** The whole relational store as one immutable value. */
  datatype Store = Store(
    users: seq<User>, forums: seq<Forum>, threads: seq<Thread>, posts: seq<Post>, votes: Ledger)

  /** The body of a service response. */
  datatype Payload =
    | ErrorMessage(message: string)
    | ThreadBody(thread: Thread)
    | PostList(posts: seq<Post>)
    | EmptyList

  /** `dto.Response`: a body and an HTTP status. */
  datatype Response = Response(data: Payload, code: int)
}

=== FILE: errors.dfy ===
/** The error taxonomy: `constants.CodedError` with its two sentinels, the driver's
    "no rows" error, and the repository helper `wrapErr` that maps one onto the other. */
module Errors {
  import opened Wrappers

  const StatusOK: int := 200
  const StatusCreated: int := 201
  const StatusNotFound: int := 404
  const StatusConflict: int := 409

  /** An error message paired with the HTTP status it should be reported with. */
  datatype CodedError = CodedError(message: string, code: int)

  /** The "Not found in db" sentinel every lookup reports a missing row with. */
  const ErrDBNotFound: CodedError := CodedError("Not found in db", StatusNotFound)

  const ErrUserAlreadyExists: CodedError := CodedError("User with given nickname already exists", StatusConflict)

  /** An `error` value as the core meets it. Sentinels are compared by value here, where Go
      compares the pointers. */
  datatype Error =
    | NoRows                        // pgx.ErrNoRows: a single-row query found nothing
    | Coded(coded: CodedError)      // a *constants.CodedError
    | StoreFailure(reason: string)  // any other error the store reports

  /** `NewCodedError(msg, code)`: the code argument is dropped and the status is always 404. */
  function NewCodedError(msg: string, code: int): (r: CodedError)
    ensures r.code == StatusNotFound
    ensures ErrorText(Coded(r)) == msg
  {
    CodedError(msg, StatusNotFound)
  }

  /** `CodedError.Code()`. */
  function Code(e: CodedError): int {
    e.code
  }

  /** The `Error()` text of an error; for a coded error, the message it wraps. */
  function ErrorText(e: Error): string {
    match e
    case NoRows => "no rows in result set"
    case Coded(c) => c.message
    case StoreFailure(reason) => reason
  }

  /** `errors.Is(err, constants.ErrDBNotFound)`. */
  predicate IsNotFound(e: Error) {
    e == Coded(ErrDBNotFound)
  }

  /** `wrapErr`: no-rows becomes the not-found sentinel, every other error (and nil) is
      returned unchanged. */
  function WrapErr(e: Option<Error>): (r: Option<Error>)
    ensures e == Some(NoRows) ==> r == Some(Coded(ErrDBNotFound))
    ensures e != Some(NoRows) ==> r == e
    ensures r != Some(NoRows)
  {
    if e == Some(NoRows) then Some(Coded(ErrDBNotFound)) else e
  }

  /** The two sentinels carry 404 and 409. */
  lemma SentinelCodes()
    ensures Code(ErrDBNotFound) == StatusNotFound
    ensures Code(ErrUserAlreadyExists) == StatusConflict
  {
  }

  /** Whatever code is passed, the constructed error carries 404. */
  lemma NewCodedErrorIgnoresCode(msg: string, a: int, b: int)
    ensures NewCodedError(msg, a) == NewCodedError(msg, b)
    ensures Code(NewCodedError(msg, a)) == StatusNotFound
  {
  }

  /** Wrapping twice is wrapping once; the error reported for a missing row is not-found. */
  lemma WrapErrIdempotent(e: Option<Error>)
    ensures WrapErr(WrapErr(e)) == WrapErr(e)
    ensures WrapErr(e).Some? && IsNotFound(WrapErr(e).value) <==> e == Some(NoRows) || e == Some(Coded(ErrDBNotFound))
  {
  }

  /** A failed single-row lookup as a repository reports it: no-rows through `wrapErr`. */
  function NotFoundError(): (e: Error)
    ensures IsNotFound(e)
    ensures Some(e) == WrapErr(Some(NoRows))
  {
    Coded(ErrDBNotFound)
  }
}

=== FILE: forum_store.dfy ===
/** The forum repository (internal/db/forum.go): the slug lookup, and the text of the two
    listing queries it builds by concatenation. Each builder is paired with a reader that
    recovers the parameters from the text, so a round trip says the text means what it should. */
module ForumStore {
  import opened Wrappers
  import opened Errors
  import opened Entities
  import opened Seqs
  import opened Text

  /** `GetForumBySlug`: the forum with that slug, or not-found. */
  function GetForumBySlug(forums: seq<Forum>, slug: string): (r: Result<Forum, Error>)
    ensures r.Success? ==> r.value in forums && r.value.slug == slug
    ensures r.Failure? <==> forall i :: 0 <= i < |forums| ==> forums[i].slug != slug
    ensures r.Failure? ==> IsNotFound(r.error)
  {
    match FindFirst(forums, (f: Forum) => f.slug == slug)
    case Some(f) => Success(f)
    case None => Failure(NotFoundError())
  }

  // ---------------------------------------------------------------------------
  // Reading query text
  // ---------------------------------------------------------------------------

  predicate StartsWith(s: string, prefix: string) {
    |prefix| <= |s| && s[..|prefix|] == prefix
  }

  /** `s` with `prefix` taken off the front, if it starts with it. */
  function Consume(s: string, prefix: string): (r: Option<string>)
    ensures r.Some? <==> StartsWith(s, prefix)
    ensures r.Some? ==> s == prefix + r.value
  {
    if StartsWith(s, prefix) then
      assert s == s[..|prefix|] + s[|prefix|..];
      Some(s[|prefix|..])
    else None
  }

  lemma ConsumePrefix(prefix: string, rest: string)
    ensures Consume(prefix + rest, prefix) == Some(rest)
  {
    assert (prefix + rest)[..|prefix|] == prefix;
    assert (prefix + rest)[|prefix|..] == rest;
  }

  /** Reads an SQL string literal whose opening quote has been consumed: characters up to the
      next lone quote, a doubled quote standing for one quote. Answers the value and the text
      after the closing quote. */
  function ReadQuoted(s: string): Option<(string, string)>
    decreases |s|
  {
    if |s| == 0 then None
    else if s[0] == '\'' then
      if |s| >= 2 && s[1] == '\'' then
        match ReadQuoted(s[2..])
        case Some((v, rest)) => Some(("'" + v, rest))
        case None => None
      else Some(("", s[1..]))
    else
      match ReadQuoted(s[1..])
      case Some((v, rest)) => Some(([s[0]] + v, rest))
      case None => None
  }

  /** SQL's quoting of a value inside a literal: each quote doubled. */
  function EscapeQuotes(v: string): (r: string)
    ensures '\'' !in v ==> r == v
    ensures |r| >= |v|
    decreases |v|
  {
    if |v| == 0 then ""
    else if v[0] == '\'' then "''" + EscapeQuotes(v[1..])
    else [v[0]] + EscapeQuotes(v[1..])
  }

  /** A quoted, escaped value reads back as itself, with the text after the literal intact. */
  lemma {:induction false} ReadEscaped(v: string, rest: string)
    requires |rest| == 0 || rest[0] != '\''
    ensures ReadQuoted(EscapeQuotes(v) + "'" + rest) == Some((v, rest))
    decreases |v|
  {
    var s := EscapeQuotes(v) + "'" + rest;
    if |v| == 0 {
      assert s == "'" + rest;
      assert s[1..] == rest;
    } else if v[0] == '\'' {
      assert s == "''" + (EscapeQuotes(v[1..]) + "'" + rest);
      assert s[2..] == EscapeQuotes(v[1..]) + "'" + rest;
      ReadEscaped(v[1..], rest);
      assert "'" + v[1..] == v;
    } else {
      assert s == [v[0]] + (EscapeQuotes(v[1..]) + "'" + rest);
      assert s[1..] == EscapeQuotes(v[1..]) + "'" + rest;
      ReadEscaped(v[1..], rest);
      assert [v[0]] + v[1..] == v;
    }
  }

  /** A value without quotes, then a lone quote: the literal ends at that quote. */
  lemma {:induction false} ReadUnquoted(a: string, rest: string)
    requires '\'' !in a
    requires |rest| == 0 || rest[0] != '\''
    ensures ReadQuoted(a + "'" + rest) == Some((a, rest))
  {
    ReadEscaped(a, rest);
  }

  // ---------------------------------------------------------------------------
  // The forum-users query
  // ---------------------------------------------------------------------------

  const UsersSelect: string := "SELECT u.nickname, u.fullname, u.about, u.email from forum_users u where u.forum = $1"
  const NicknameBelow: string := " and u.nickname < '"
  const NicknameAbove: string := " and u.nickname > '"
  const UsersOrder: string := " ORDER BY u.nickname"
  const Descending: string := " desc"
  const LimitWord: string := " LIMIT "

  /** The parameters a forum-users query text stands for. */
  datatype Cursor = NoCursor | Below(name: string) | Above(name: string)
  datatype UsersQuery = UsersQuery(cursor: Cursor, desc: bool, limit: int)

  /** The cursor the request asks for: none for an empty `since`, otherwise the names strictly
      below it (descending) or strictly above it (ascending). */
  function UsersCursor(since: string, desc: bool): Cursor {
    if since == "" then NoCursor else if desc then Below(since) else Above(since)
  }

  /** The clauses after the cursor: the nickname order, " desc" when descending, and the
      limit printed with `%d`, present even when it is 0. */
  function UsersTail(limit: int, desc: bool): string {
    UsersOrder + UsersDirectionText(limit, desc)
  }

  function UsersDirectionText(limit: int, desc: bool): string {
    (if desc then Descending else "") + (LimitWord + FormatInt(limit))
  }

  /** `constructGetForumUsersQuery` as written: `since` is pasted between quotes verbatim. */
  function ForumUsersQueryAsWritten(limit: int, since: string, desc: bool): string {
    UsersSelect
    + (if since == "" then "" else (if desc then NicknameBelow else NicknameAbove) + since + "'")
    + UsersTail(limit, desc)
  }

  /** The query with the quotes inside `since` doubled, so the literal holds exactly `since`. */
  function ForumUsersQuery(limit: int, since: string, desc: bool): string {
    UsersSelect
    + (if since == "" then "" else (if desc then NicknameBelow else NicknameAbove) + EscapeQuotes(since) + "'")
    + UsersTail(limit, desc)
  }

  /** Reads ` LIMIT ` and a decimal number. */
  function ReadLimit(s: string): Option<int> {
    match Consume(s, LimitWord)
    case None => None
    case Some(digits) => Atoi(digits)
  }

  /** Reads the optional " desc" and the LIMIT after the nickname order. */
  function ReadUsersDirection(r: string): Option<(bool, int)> {
    var desc := StartsWith(r, Descending);
    var r' := if desc then r[|Descending|..] else r;
    match ReadLimit(r')
    case None => None
    case Some(n) => Some((desc, n))
  }

  /** Reads the clauses after the cursor. */
  function ReadUsersTail(s: string): Option<(bool, int)> {
    match Consume(s, UsersOrder)
    case None => None
    case Some(r) => ReadUsersDirection(r)
  }

  /** Reads a forum-users query text back into the parameters it stands for. */
  function ReadUsersQuery(q: string): Option<UsersQuery> {
    match Consume(q, UsersSelect)
    case None => None
    case Some(r) =>
      var below := Consume(r, NicknameBelow);
      var above := Consume(r, NicknameAbove);
      if below.Some? || above.Some? then
        var literal := if below.Some? then below.value else above.value;
        match ReadQuoted(literal)
        case None => None
        case Some((name, rest)) =>
          match ReadUsersTail(rest)
          case None => None
          case Some((desc, n)) => Some(UsersQuery(if below.Some? then Below(name) else Above(name), desc, n))
      else
        match ReadUsersTail(r)
        case None => None
        case Some((desc, n)) => Some(UsersQuery(NoCursor, desc, n))
  }

  lemma ReadLimitRoundTrip(limit: int)
    requires InInt64(limit)
    ensures ReadLimit(LimitWord + FormatInt(limit)) == Some(limit)
  {
    ConsumePrefix(LimitWord, FormatInt(limit));
    AtoiFormatInt(limit);
  }

  /** An optional word is read off exactly when it was written, provided the text after it
      does not itself start with the word. */
  lemma WordRoundTrip(word: string, present: bool, rest: string)
    requires !StartsWith(rest, word)
    ensures var r := (if present then word else "") + rest;
      StartsWith(r, word) == present && (if present then r[|word|..] else r) == rest
  {
    var r := (if present then word else "") + rest;
    if present {
      assert r[..|word|] == word;
      assert r[|word|..] == rest;
    } else {
      assert r == rest;
    }
  }

  lemma ReadUsersDirectionRoundTrip(limit: int, desc: bool)
    requires InInt64(limit)
    ensures ReadUsersDirection(UsersDirectionText(limit, desc)) == Some((desc, limit))
  {
    var lt := LimitWord + FormatInt(limit);
    assert !StartsWith(lt, Descending) by { assert lt[1] == 'L'; }
    WordRoundTrip(Descending, desc, lt);
    ReadLimitRoundTrip(limit);
  }

  lemma ReadUsersTailRoundTrip(limit: int, desc: bool)
    requires InInt64(limit)
    ensures ReadUsersTail(UsersTail(limit, desc)) == Some((desc, limit))
  {
    ConsumePrefix(UsersOrder, UsersDirectionText(limit, desc));
    ReadUsersDirectionRoundTrip(limit, desc);
  }

  /** The text after the select when there is no cursor cannot be mistaken for a cursor. */
  lemma NoCursorClause(limit: int, desc: bool)
    ensures Consume(UsersTail(limit, desc), NicknameBelow).None?
    ensures Consume(UsersTail(limit, desc), NicknameAbove).None?
  {
    assert UsersTail(limit, desc)[1] == 'O';
  }

  /** The two cursor clauses differ in their comparison sign. */
  lemma CursorClausesDiffer(literal: string)
    ensures Consume(NicknameBelow + literal, NicknameAbove).None?
    ensures Consume(NicknameAbove + literal, NicknameBelow).None?
  {
    assert (NicknameBelow + literal)[16] == '<';
    assert (NicknameAbove + literal)[16] == '>';
  }

  /** How the reader takes apart a query whose cursor literal holds `name` followed by
      `rest`. */
  lemma {:induction false} ReadCursorQuery(clause: string, literal: string, name: string, rest: string)
    requires clause == NicknameBelow || clause == NicknameAbove
    requires ReadQuoted(literal) == Some((name, rest))
    ensures ReadUsersQuery(UsersSelect + (clause + literal)) ==
      match ReadUsersTail(rest)
      case None => None
      case Some((desc, n)) => Some(UsersQuery(if clause == NicknameBelow then Below(name) else Above(name), desc, n))
  {
    ConsumePrefix(UsersSelect, clause + literal);
    ConsumePrefix(clause, literal);
    CursorClausesDiffer(literal);
  }

  /** The users query reads back as the request that built it: the select, the cursor on
      exactly `since` in the requested direction (none when `since` is empty), the order and
      the limit. */
  lemma {:induction false} ForumUsersQueryRoundTrip(limit: int, since: string, desc: bool)
    requires InInt64(limit)
    ensures ReadUsersQuery(ForumUsersQuery(limit, since, desc)) == Some(UsersQuery(UsersCursor(since, desc), desc, limit))
  {
    if since == "" {
      NoCursorRoundTrip(limit, desc);
    } else {
      CursorRoundTrip(limit, since, desc);
    }
  }

  lemma EmptyMiddle(a: string, b: string)
    ensures a + "" + b == a + b
  {
  }

  /** How the reader takes apart a query with no cursor clause. */
  lemma {:induction false} ReadNoCursorQuery(tail: string)
    requires Consume(tail, NicknameBelow).None? && Consume(tail, NicknameAbove).None?
    ensures ReadUsersQuery(UsersSelect + tail) ==
      match ReadUsersTail(tail)
      case None => None
      case Some((desc, n)) => Some(UsersQuery(NoCursor, desc, n))
  {
    ConsumePrefix(UsersSelect, tail);
  }

  lemma {:induction false} NoCursorRoundTrip(limit: int, desc: bool)
    requires InInt64(limit)
    ensures ReadUsersQuery(ForumUsersQuery(limit, "", desc)) == Some(UsersQuery(NoCursor, desc, limit))
  {
    var tail := UsersTail(limit, desc);
    ReadUsersTailRoundTrip(limit, desc);
    EmptyMiddle(UsersSelect, tail);
    NoCursorClause(limit, desc);
    ReadNoCursorQuery(tail);
  }

  lemma {:induction false} CursorRoundTrip(limit: int, since: string, desc: bool)
    requires since != "" && InInt64(limit)
    ensures ReadUsersQuery(ForumUsersQuery(limit, since, desc)) == Some(UsersQuery(UsersCursor(since, desc), desc, limit))
  {
    var tail := UsersTail(limit, desc);
    var clause := if desc then NicknameBelow else NicknameAbove;
    var literal := EscapeQuotes(since) + "'" + tail;
    ReadUsersTailRoundTrip(limit, desc);
    QueryWithCursor(clause, EscapeQuotes(since), tail);
    assert tail[0] == ' ';
    ReadEscaped(since, tail);
    ReadCursorQuery(clause, literal, since, tail);
  }

  lemma QueryWithCursor(clause: string, quoted: string, tail: string)
    ensures UsersSelect + (clause + quoted + "'") + tail == UsersSelect + (clause + (quoted + "'" + tail))
  {
  }

  /** Without a quote in `since` the query as written is the escaped one. */
  lemma AsWrittenAgreesWithoutQuotes(limit: int, since: string, desc: bool)
    requires '\'' !in since
    ensures ForumUsersQueryAsWritten(limit, since, desc) == ForumUsersQuery(limit, since, desc)
  {
  }

  /** With a quote in `since` that is followed by some other character (as in the nickname
      O'Hara) the query as written does not read back as the request: the literal ends at the
      quote, so the cursor is on the text before it, or the query does not read at all. */
  lemma {:induction false} AsWrittenMisreadsQuote(limit: int, a: string, b: string, desc: bool)
    requires '\'' !in a
    requires |b| > 0 && b[0] != '\''
    ensures var since := a + "'" + b;
      ReadUsersQuery(ForumUsersQueryAsWritten(limit, since, desc)) != Some(UsersQuery(UsersCursor(since, desc), desc, limit))
  {
    var since := a + "'" + b;
    var tail := UsersTail(limit, desc);
    var clause := if desc then NicknameBelow else NicknameAbove;
    var literal := since + "'" + tail;
    QueryWithCursor(clause, since, tail);
    assert literal == a + "'" + (b + "'" + tail);
    ReadUnquoted(a, b + "'" + tail);
    ReadCursorQuery(clause, literal, a, b + "'" + tail);
    assert a != since by { assert |a| < |since|; }
  }

  /** The concrete case: a cursor at the nickname O'Hara. */
  lemma AsWrittenMisreadsOHara()
    ensures ReadUsersQuery(ForumUsersQueryAsWritten(10, "O'Hara", false)) != Some(UsersQuery(Above("O'Hara"), false, 10))
  {
    assert "O'Hara" == "O" + "'" + "Hara";
    AsWrittenMisreadsQuote(10, "O", "Hara", false);
  }

  // ---------------------------------------------------------------------------
  // The forum-threads query
  // ---------------------------------------------------------------------------

  const ThreadsSelect: string := "SELECT t.id, t.title, t.author, t.forum, t.message, t.votes, t.slug, t.created FROM threads as t LEFT JOIN forum f on t.forum = f.slug WHERE f.slug = $1"
  const CreatedAtMost: string := " and t.created <= $2 "
  const CreatedAtLeast: string := " and t.created >= $2 "
  const ThreadsOrder: string := "ORDER BY t.created "
  const DescWord: string := "DESC"

  /** The inclusive bound on `created` a non-empty `since` asks for. */
  datatype Bound = NoBound | AtMost | AtLeast
  datatype ThreadsQuery = ThreadsQuery(bound: Bound, desc: bool, limit: nat)

  function ThreadsBound(since: string, desc: bool): Bound {
    if since == "" then NoBound else if desc then AtMost else AtLeast
  }

  /** The inclusive bound on `created`; its value travels as the argument $2. */
  function BoundText(since: string, desc: bool): string {
    if since == "" then "" else if desc then CreatedAtMost else CreatedAtLeast
  }

  /** The text after the order clause: DESC when descending, and the LIMIT only for a
      positive limit. */
  function DirectionText(limit: int, desc: bool): string {
    (if desc then DescWord else "") + (if limit > 0 then LimitWord + FormatInt(limit) else "")
  }

  /** The order, with DESC when descending, and a LIMIT only for a positive limit. */
  function ThreadsOrderText(limit: int, desc: bool): string {
    ThreadsOrder + DirectionText(limit, desc)
  }

  /** The clauses `GetForumThreads` appends to its base statement. */
  function ThreadsClauses(limit: int, since: string, desc: bool): string {
    BoundText(since, desc) + ThreadsOrderText(limit, desc)
  }

  /** The query as written: the clauses are appended after the base statement's terminating
      semicolon. */
  function ForumThreadsQueryAsWritten(limit: int, since: string, desc: bool): string {
    ThreadsSelect + ";" + ThreadsClauses(limit, since, desc)
  }

  /** The query with the clauses inside the statement: the base ends in a space, not a `;`. */
  function ForumThreadsQuery(limit: int, since: string, desc: bool): string {
    ThreadsSelect + " " + ThreadsClauses(limit, since, desc)
  }

  /** As written, a semicolon ends the statement and the ORDER BY clause (after the bound on
      `created`, when there is one) follows it, outside the statement it was meant for. */
  lemma {:induction false} AsWrittenClausesFollowTerminator(limit: int, since: string, desc: bool)
    ensures var q := ForumThreadsQueryAsWritten(limit, since, desc);
      exists i :: 0 <= i < |q| && q[i] == ';' && q[i + 1..] == BoundText(since, desc) + ThreadsOrderText(limit, desc)
  {
    var q := ForumThreadsQueryAsWritten(limit, since, desc);
    TerminatorAt(ThreadsSelect, ThreadsClauses(limit, since, desc));
    var i := |ThreadsSelect|;
    assert q[i] == ';' && q[i + 1..] == ThreadsClauses(limit, since, desc);
  }

  /** The text after a statement and its terminator. */
  lemma TerminatorAt(base: string, rest: string)
    ensures var q := base + ";" + rest;
      |base| < |q| && q[|base|] == ';' && q[|base| + 1..] == rest
  {
    var q := base + ";" + rest;
    assert q == base + (";" + rest);
  }

  /** Reads the optional DESC and the optional LIMIT after the order clause. */
  function ReadThreadsDirection(r1: string): Option<(bool, nat)> {
    var desc := StartsWith(r1, DescWord);
    var r2 := if desc then r1[|DescWord|..] else r1;
    if r2 == "" then Some((desc, 0))
    else
      match ReadLimit(r2)
      case Some(n) => if n > 0 then Some((desc, n)) else None
      case None => None
  }

  /** Reads the order clause and the optional LIMIT. */
  function ReadThreadsOrder(s: string): Option<(bool, nat)> {
    match Consume(s, ThreadsOrder)
    case None => None
    case Some(r1) => ReadThreadsDirection(r1)
  }

  /** Reads the text after the base statement back into the parameters. */
  function ReadThreadsClauses(s: string): Option<ThreadsQuery> {
    var atMost := Consume(s, CreatedAtMost);
    var atLeast := Consume(s, CreatedAtLeast);
    var bound := if atMost.Some? then AtMost else if atLeast.Some? then AtLeast else NoBound;
    var r := if atMost.Some? then atMost.value else if atLeast.Some? then atLeast.value else s;
    match ReadThreadsOrder(r)
    case None => None
    case Some((desc, n)) => Some(ThreadsQuery(bound, desc, n))
  }

  /** Reads a forum-threads query text: the base statement, a space, then its clauses. */
  function ReadThreadsQuery(q: string): Option<ThreadsQuery> {
    match Consume(q, ThreadsSelect + " ")
    case None => None
    case Some(r) => ReadThreadsClauses(r)
  }

  lemma ReadThreadsDirectionRoundTrip(limit: int, desc: bool)
    requires InInt64(limit)
    ensures ReadThreadsDirection(DirectionText(limit, desc)) == Some((desc, if limit > 0 then limit else 0))
  {
    var limitText := if limit > 0 then LimitWord + FormatInt(limit) else "";
    assert !StartsWith(limitText, DescWord) by {
      if limit > 0 { assert limitText[0] == ' '; }
    }
    WordRoundTrip(DescWord, desc, limitText);
    if limit > 0 {
      ReadLimitRoundTrip(limit);
    }
  }

  lemma ReadThreadsOrderRoundTrip(limit: int, desc: bool)
    requires InInt64(limit)
    ensures ReadThreadsOrder(ThreadsOrderText(limit, desc)) == Some((desc, if limit > 0 then limit else 0))
  {
    ConsumePrefix(ThreadsOrder, DirectionText(limit, desc));
    ReadThreadsDirectionRoundTrip(limit, desc);
  }

  /** The order clause cannot be mistaken for a bound, nor one bound for the other. */
  lemma BoundsAreDistinct(limit: int, desc: bool, rest: string)
    ensures Consume(ThreadsOrderText(limit, desc), CreatedAtMost).None?
    ensures Consume(ThreadsOrderText(limit, desc), CreatedAtLeast).None?
    ensures Consume(CreatedAtMost + rest, CreatedAtLeast).None?
    ensures Consume(CreatedAtLeast + rest, CreatedAtMost).None?
  {
    assert ThreadsOrderText(limit, desc)[0] == 'O';
    assert (CreatedAtMost + rest)[15] == '<';
    assert (CreatedAtLeast + rest)[15] == '>';
  }

  lemma ReadUnboundedClauses(limit: int, desc: bool)
    requires InInt64(limit)
    ensures ReadThreadsClauses(ThreadsOrderText(limit, desc)) == Some(ThreadsQuery(NoBound, desc, if limit > 0 then limit else 0))
  {
    ReadThreadsOrderRoundTrip(limit, desc);
    BoundsAreDistinct(limit, desc, "");
  }

  lemma ReadBoundedClauses(limit: int, desc: bool)
    requires InInt64(limit)
    ensures ReadThreadsClauses((if desc then CreatedAtMost else CreatedAtLeast) + ThreadsOrderText(limit, desc))
         == Some(ThreadsQuery(if desc then AtMost else AtLeast, desc, if limit > 0 then limit else 0))
  {
    var order := ThreadsOrderText(limit, desc);
    ReadThreadsOrderRoundTrip(limit, desc);
    BoundsAreDistinct(limit, desc, order);
    ConsumePrefix(if desc then CreatedAtMost else CreatedAtLeast, order);
  }

  /** The clauses read back as the bound, the direction and the limit they were built from. */
  lemma ReadThreadsClausesRoundTrip(limit: int, since: string, desc: bool)
    requires InInt64(limit)
    ensures ReadThreadsClauses(ThreadsClauses(limit, since, desc))
         == Some(ThreadsQuery(ThreadsBound(since, desc), desc, if limit > 0 then limit else 0))
  {
    if since != "" {
      ReadBoundedClauses(limit, desc);
    } else {
      assert ThreadsClauses(limit, since, desc) == ThreadsOrderText(limit, desc);
      ReadUnboundedClauses(limit, desc);
    }
  }

  /** The threads query reads back as the request that built it: the bound `since` asks for,
      the direction, and the limit (0 when none is sent). */
  lemma {:induction false} ForumThreadsQueryRoundTrip(limit: int, since: string, desc: bool)
    requires InInt64(limit)
    ensures ReadThreadsQuery(ForumThreadsQuery(limit, since, desc))
         == Some(ThreadsQuery(ThreadsBound(since, desc), desc, if limit > 0 then limit else 0))
  {
    var clauses := ThreadsClauses(limit, since, desc);
    assert ForumThreadsQuery(limit, since, desc) == (ThreadsSelect + " ") + clauses;
    ConsumePrefix(ThreadsSelect + " ", clauses);
    ReadThreadsClausesRoundTrip(limit, since, desc);
  }

  // ---------------------------------------------------------------------------
  // Materialising the listed rows
  // ---------------------------------------------------------------------------

  /** The row loop of `GetForumUsers` and `GetForumThreads` as written: every row is scanned
      into the one record allocated before the loop and that same record is appended each
      time, so every element of the list shows the last row. */
  function ScanIntoOneRecord<T>(rows: seq<T>): (r: seq<T>)
    ensures |r| == |rows|
    ensures forall i :: 0 <= i < |r| ==> r[i] == rows[|rows| - 1]
  {
    seq(|rows|, i requires 0 <= i < |rows| => rows[|rows| - 1])
  }

  /** Two different rows are listed as two copies of the second. */
  lemma ScanIntoOneRecordLosesRows<T>(a: T, b: T)
    requires a != b
    ensures ScanIntoOneRecord([a, b]) == [b, b] != [a, b]
  {
    assert ScanIntoOneRecord([a, b])[0] == b;
  }

  /** The loop with a fresh record per row: the list is the rows, in order. It stands only as
      the corrected counterpart of `ScanIntoOneRecord`; the forum listings themselves are not
      part of this model. */
  function ScanRows<T>(rows: seq<T>): (r: seq<T>)
    ensures |r| == |rows|
    ensures forall i :: 0 <= i < |r| ==> r[i] == rows[i]
    decreases |rows|
  {
    if |rows| == 0 then [] else ScanRows(rows[..|rows| - 1]) + [rows[|rows| - 1]]
  }
}

=== FILE: paths.dfy ===
/** Materialised paths and the order the store compares them in: integer arrays compared
    element by element, a proper prefix sorting before its extensions. */
module Paths {

  predicate PathLt(a: seq<int>, b: seq<int>)
    decreases |a|
  {
    if |a| == 0 then |b| > 0
    else if |b| == 0 then false
    else a[0] < b[0] || (a[0] == b[0] && PathLt(a[1..], b[1..]))
  }

  predicate PathLe(a: seq<int>, b: seq<int>) {
    a == b || PathLt(a, b)
  }

  predicate IsPrefix(a: seq<int>, b: seq<int>) {
    |a| <= |b| && b[..|a|] == a
  }

  lemma {:induction false} PathLtIrreflexive(a: seq<int>)
    ensures !PathLt(a, a)
    decreases |a|
  {
    if |a| > 0 {
      PathLtIrreflexive(a[1..]);
    }
  }

  lemma {:induction false} PathLtTransitive(a: seq<int>, b: seq<int>, c: seq<int>)
    requires PathLt(a, b) && PathLt(b, c)
    ensures PathLt(a, c)
    decreases |a|
  {
    if |a| > 0 && a[0] == b[0] && b[0] == c[0] {
      PathLtTransitive(a[1..], b[1..], c[1..]);
    }
  }

  lemma {:induction false} PathLtTotal(a: seq<int>, b: seq<int>)
    ensures a == b || PathLt(a, b) || PathLt(b, a)
    decreases |a|
  {
    if |a| > 0 && |b| > 0 && a[0] == b[0] {
      PathLtTotal(a[1..], b[1..]);
      if a[1..] == b[1..] {
        assert a == [a[0]] + a[1..] && b == [b[0]] + b[1..];
      }
    }
  }

  lemma PathLtAsymmetric(a: seq<int>, b: seq<int>)
    requires PathLt(a, b)
    ensures !PathLe(b, a)
  {
    PathLtIrreflexive(a);
    if PathLt(b, a) {
      PathLtTransitive(a, b, a);
    }
  }

  /** A proper prefix sorts strictly first: an ancestor precedes every descendant. */
  lemma {:induction false} PrefixPrecedes(a: seq<int>, b: seq<int>)
    requires IsPrefix(a, b) && a != b
    ensures PathLt(a, b)
    decreases |a|
  {
    if |a| > 0 {
      assert a[1..] == b[1..][..|a| - 1];
      PrefixPrecedes(a[1..], b[1..]);
    }
  }

  /** Anything that sorts between a path and one of its extensions extends it too. This is
      what makes path order a pre-order walk: a subtree is a contiguous run. */
  lemma {:induction false} PrefixBetween(a: seq<int>, b: seq<int>, c: seq<int>)
    requires PathLe(a, b) && PathLe(b, c)
    requires IsPrefix(a, c)
    ensures IsPrefix(a, b)
    decreases |a|
  {
    if |a| > 0 && a != b {
      if b == c {
      } else {
        assert |b| > 0;
        assert c[0] == a[0];
        assert b[0] == a[0];
        assert c[1..][..|a| - 1] == a[1..];
        PrefixBetween(a[1..], b[1..], c[1..]);
        assert b[..|a|] == [b[0]] + b[1..][..|a| - 1];
      }
    }
  }
}

=== FILE: post_service.dfy ===
/** The posts service (internal/services/post.go): creating a batch of posts in a thread,
    with the checks on the batch's first entry, and listing a thread's posts in one of the
    three sort modes. */
module PostService {
  import opened Wrappers
  import opened Errors
  import opened Entities
  import opened Text
  import opened UserStore
  import opened ThreadStore
  import opened PostStore
  import opened ThreadService

  const ParentConflictMessage: string := "Parent post was created in another thread"

  // ---------------------------------------------------------------------------
  // CreatePosts
  // ---------------------------------------------------------------------------

  /** Whether the first entry's parent, when it names one, is a post of `thread` (the post the
      store finds under that id, should ids repeat). */
  predicate ParentInThread(store: Store, posts: seq<PostData>, thread: int)
    requires |posts| > 0
  {
    posts[0].parent == 0 || (FindPost(store.posts, posts[0].parent).Some? && FindPost(store.posts, posts[0].parent).value.thread == thread)
  }

  /** `CreatePosts`: a thread that cannot be resolved is answered 404. An empty batch is
      answered 201 with an empty list. Only the batch's first entry is checked:
      - a parent that names no post is the store's raw no-rows error;
      - a parent in another thread is 409;
      - an unknown author is 404.
      Then the whole batch is inserted in the resolved thread and that thread's forum, and the
      inserted posts are answered with 201. A store error on the insert is passed on. */
  function CreatePosts(store: Store, slugOrID: string, posts: seq<PostData>, insertTime: nat, reply: InsertReply)
    : (r: Result<Response, Error>)
    requires reply.Returned? ==> |reply.ids| <= |posts|
    ensures ResolveThread(store.threads, slugOrID).Unresolved? ==>
      r == Success(ResolveThread(store.threads, slugOrID).response)
    ensures ResolveThread(store.threads, slugOrID).Resolved? && |posts| == 0 ==>
      r == Success(Response(EmptyList, StatusCreated))
    ensures (&& ResolveThread(store.threads, slugOrID).Resolved? && |posts| > 0 && posts[0].parent != 0
             && (forall p :: p in store.posts ==> p.id != posts[0].parent)) ==>
      r == Failure(NoRows)
    ensures (&& ResolveThread(store.threads, slugOrID).Resolved? && |posts| > 0 && posts[0].parent != 0
             && FindPost(store.posts, posts[0].parent).Some?
             && FindPost(store.posts, posts[0].parent).value.thread != ResolveThread(store.threads, slugOrID).thread.id) ==>
      r == Success(Response(ErrorMessage(ParentConflictMessage), StatusConflict))
    ensures (&& ResolveThread(store.threads, slugOrID).Resolved? && |posts| > 0
             && ParentInThread(store, posts, ResolveThread(store.threads, slugOrID).thread.id)
             && GetUserByNickname(store.users, posts[0].author).Failure?) ==>
      r == Success(NotFoundResponse(UserMessage(posts[0].author)))
    ensures r.Success? && r.value.code == StatusConflict ==>
      && r.value == Response(ErrorMessage(ParentConflictMessage), StatusConflict)
      && ResolveThread(store.threads, slugOrID).Resolved? && |posts| > 0 && posts[0].parent != 0
      && FindPost(store.posts, posts[0].parent).Some?
      && FindPost(store.posts, posts[0].parent).value.thread != ResolveThread(store.threads, slugOrID).thread.id
    ensures r.Success? && r.value.data.PostList? ==>
      && r.value.code == StatusCreated
      && ResolveThread(store.threads, slugOrID).Resolved?
      && |posts| > 0
      && ParentInThread(store, posts, ResolveThread(store.threads, slugOrID).thread.id)
      && GetUserByNickname(store.users, posts[0].author).Success?
      && reply.Returned?
    ensures r.Success? && r.value.data.PostList? ==>
      var thread := ResolveThread(store.threads, slugOrID).thread;
      && |r.value.data.posts| == |posts|
      && reply.Returned?
      && forall i :: 0 <= i < |posts| ==>
           && r.value.data.posts[i].id == (if i < |reply.ids| then reply.ids[i] else 0)
           && r.value.data.posts[i].thread == thread.id
           && r.value.data.posts[i].forum == thread.forum
           && r.value.data.posts[i].parent == posts[i].parent
           && r.value.data.posts[i].author == posts[i].author
           && r.value.data.posts[i].message == posts[i].message
           && r.value.data.posts[i].created == insertTime
    ensures (&& ResolveThread(store.threads, slugOrID).Resolved? && |posts| > 0
             && ParentInThread(store, posts, ResolveThread(store.threads, slugOrID).thread.id)
             && GetUserByNickname(store.users, posts[0].author).Success?) ==>
      (r.Success? && r.value.data.PostList? <==> reply.Returned?)
    ensures r.Failure? ==> r.error == NoRows || (reply.Rejected? && r.error == reply.error)
  {
    match ResolveThread(store.threads, slugOrID)
    case Unresolved(response) => Success(response)
    case Resolved(thread) =>
      if |posts| == 0 then Success(Response(EmptyList, StatusCreated))
      else
        var parentCheck := if posts[0].parent != 0 then CheckParentPost(store.posts, posts[0].parent) else Success(thread.id);
        match parentCheck
        case Failure(e) => Failure(e)
        case Success(parentThread) =>
          if parentThread != thread.id then
            Success(Response(ErrorMessage(ParentConflictMessage), StatusConflict))
          else
            match GetUserByNickname(store.users, posts[0].author)
            case Failure(_) => Success(NotFoundResponse(UserMessage(posts[0].author)))
            case Success(_) =>
              match PostStore.CreatePosts(thread.forum, thread.id, posts, insertTime, reply)
              case Failure(e) => Failure(e)
              case Success(inserted) => Success(Response(PostList(inserted), StatusCreated))
  }

  /** Only the first entry is checked: two batches of the same length that start with the same
      entry get the same kind of answer, whatever their other entries' parents and authors. */
  lemma {:induction false} OnlyFirstEntryIsChecked(store: Store, slugOrID: string, a: seq<PostData>, b: seq<PostData>,
                                                   insertTime: nat, reply: InsertReply)
    requires |a| == |b| && |a| > 0 && a[0] == b[0]
    requires reply.Returned? ==> |reply.ids| <= |a|
    ensures CreatePosts(store, slugOrID, a, insertTime, reply).Success? == CreatePosts(store, slugOrID, b, insertTime, reply).Success?
    ensures CreatePosts(store, slugOrID, a, insertTime, reply).Success? ==>
      CreatePosts(store, slugOrID, a, insertTime, reply).value.code == CreatePosts(store, slugOrID, b, insertTime, reply).value.code
  {
  }

  /** A batch the database refuses while executing the INSERT (say, a later entry's author is
      unknown) still passes the first-entry checks, and since the refusal is never read it is
      answered 201 with every post carrying id 0. */
  lemma {:induction false} RefusedInsertAnswersCreated(store: Store, slugOrID: string, posts: seq<PostData>, insertTime: nat)
    requires ResolveThread(store.threads, slugOrID).Resolved? && |posts| > 0
    requires ParentInThread(store, posts, ResolveThread(store.threads, slugOrID).thread.id)
    requires GetUserByNickname(store.users, posts[0].author).Success?
    ensures var r := CreatePosts(store, slugOrID, posts, insertTime, Returned([]));
      && r.Success? && r.value.code == StatusCreated && r.value.data.PostList?
      && |r.value.data.posts| == |posts|
      && forall i :: 0 <= i < |posts| ==> r.value.data.posts[i].id == 0
  {
  }

  // ---------------------------------------------------------------------------
  // GetPosts
  // ---------------------------------------------------------------------------

  datatype SortMode = Flat | Tree | ParentTree

  /** The `sort` query parameter: "tree" and "parent_tree" select those modes, anything else
      (including "flat" and nothing) is the flat listing. */
  function ParseSort(sort: string): (m: SortMode)
    ensures m == Tree <==> sort == "tree"
    ensures m == ParentTree <==> sort == "parent_tree"
  {
    if sort == "tree" then Tree else if sort == "parent_tree" then ParentTree else Flat
  }

  /** The listing of the chosen mode for thread `thread`. */
  function ListPosts(store: Store, mode: SortMode, thread: int, since: int, desc: bool, limit: int): seq<Post>
  {
    match mode
    case Flat => GetPostsFlat(store.posts, thread, since, desc, limit)
    case Tree => GetPostsTree(store.posts, thread, since, desc, limit)
    case ParentTree => GetPostsParentTree(store.posts, thread, since, desc, limit)
  }

  /** The second lookup of `GetPosts`: the thread by id, or 404 naming the id. */
  function LookupById(threads: seq<Thread>, id: int): Result<int, Response> {
    match GetForumThreadByID(threads, id)
    case Failure(_) => Failure(NotFoundResponse(ThreadByIdMessage(id)))
    case Success(_) => Success(id)
  }

  /** The lookups of `GetPosts`: a path segment that is not a number is first looked up by slug
      (404 when absent), and the id is then looked up once more. The two steps answer exactly
      as the one-step resolution of the thread service: the resolved thread's id, or the same
      404 answer. */
  function LookupForListing(threads: seq<Thread>, slugOrID: string): (r: Result<int, Response>)
    ensures r.Success? <==> ResolveThread(threads, slugOrID).Resolved?
    ensures r.Success? ==> r.value == ResolveThread(threads, slugOrID).thread.id
    ensures r.Failure? ==> r.error == ResolveThread(threads, slugOrID).response
  {
    match Atoi(slugOrID)
    case Some(id) => LookupById(threads, id)
    case None =>
      match GetForumThreadBySlug(threads, slugOrID)
      case Failure(_) => Failure(NotFoundResponse(ThreadBySlugMessage(slugOrID)))
      case Success(t) =>
        assert GetForumThreadByID(threads, t.id).Success? by {
          var i :| 0 <= i < |threads| && threads[i] == t;
        }
        LookupById(threads, t.id)
  }

  /** `GetPosts`: the thread is looked up as above, then its posts are listed in the chosen
      mode and answered with 200. A negative limit lists nothing (the listing's execution error
      is never read), so it too is answered 200, with an empty list. */
  function GetPosts(store: Store, slugOrID: string, sort: string, since: int, desc: bool, limit: int): (r: Response)
    ensures ResolveThread(store.threads, slugOrID).Unresolved? ==>
      r == ResolveThread(store.threads, slugOrID).response
    ensures ResolveThread(store.threads, slugOrID).Resolved? ==>
      var thread := ResolveThread(store.threads, slugOrID).thread;
      && r.code == StatusOK && r.data.PostList?
      && r.data.posts == ListPosts(store, ParseSort(sort), thread.id, since, desc, limit)
      && (limit < 0 ==> r.data.posts == [])
  {
    match LookupForListing(store.threads, slugOrID)
    case Failure(response) => response
    case Success(id) => Response(PostList(ListPosts(store, ParseSort(sort), id, since, desc, limit)), StatusOK)
  }

  /** An unknown sort mode lists exactly as "flat". */
  lemma UnknownSortIsFlat(store: Store, slugOrID: string, sort: string, since: int, desc: bool, limit: int)
    requires sort != "tree" && sort != "parent_tree"
    ensures GetPosts(store, slugOrID, sort, since, desc, limit) == GetPosts(store, slugOrID, "flat", since, desc, limit)
  {
  }

  /** Whatever the mode, a listing holds only posts of the store, none more often than the
      store holds it, and in the flat and tree modes only posts of the resolved thread. */
  lemma {:induction false} ListingStaysInThread(store: Store, slugOrID: string, sort: string, since: int, desc: bool, limit: int)
    requires ResolveThread(store.threads, slugOrID).Resolved?
    ensures var r := GetPosts(store, slugOrID, sort, since, desc, limit);
      var thread := ResolveThread(store.threads, slugOrID).thread;
      && r.code == StatusOK && r.data.PostList?
      && multiset(r.data.posts) <= multiset(store.posts)
      && (forall p :: p in r.data.posts ==> p in store.posts)
      && (sort != "parent_tree" ==> forall p :: p in r.data.posts ==> p.thread == thread.id)
  {
    var thread := ResolveThread(store.threads, slugOrID).thread;
    var page := GetPosts(store, slugOrID, sort, since, desc, limit).data.posts;
    match ParseSort(sort)
    case Flat =>
      assert GetPostsFlat(store.posts, thread.id, since, desc, limit) == page;
    case Tree =>
      assert GetPostsTree(store.posts, thread.id, since, desc, limit) == page;
    case ParentTree =>
      assert GetPostsParentTree(store.posts, thread.id, since, desc, limit) == page;
  }
}

=== FILE: post_store.dfy ===
/** The post repository (internal/db/post.go): the batch insert statement, the parent check,
    the three paginated listings over materialised paths, and the single-post details lookup. */
module PostStore {
  import opened Wrappers
  import opened Errors
  import opened Entities
  import opened Seqs
  import opened Text
  import opened Paths
  import opened Sorting

  // ---------------------------------------------------------------------------
  // CreatePosts: the multi-row INSERT
  // ---------------------------------------------------------------------------

  /** A bound query argument. */
  datatype Arg = IntArg(n: int) | TextArg(s: string) | TimeArg(t: nat)

  const InsertHead: string := "INSERT INTO posts (parent, author, message, forum, thread, created) VALUES "
  const InsertTail: string := " RETURNING id;"

  /** `$k`: the k-th bound argument, counted from 1. */
  function Placeholder(k: int): string {
    "$" + FormatInt(k)
  }

  /** The VALUES tuple of the i-th row: placeholders 6i+1 through 6i+6. */
  function RowTuple(i: nat): string {
    "(" + Placeholder(6 * i + 1) + ", " + Placeholder(6 * i + 2) + ", " + Placeholder(6 * i + 3)
    + ", " + Placeholder(6 * i + 4) + ", " + Placeholder(6 * i + 5) + ", " + Placeholder(6 * i + 6) + ")"
  }

  function RowTuples(n: nat): (r: seq<string>)
    ensures |r| == n && forall i :: 0 <= i < n ==> r[i] == RowTuple(i)
    decreases n
  {
    if n == 0 then [] else RowTuples(n - 1) + [RowTuple(n - 1)]
  }

  /** The six arguments of one row, in column order. */
  function RowArgs(d: PostData, forum: string, thread: int, insertTime: nat): seq<Arg> {
    [IntArg(d.parent), TextArg(d.author), TextArg(d.message), TextArg(forum), IntArg(thread), TimeArg(insertTime)]
  }

  /** The arguments of all rows, row after row: arguments 6i through 6i+5 are row i's, which
      are the ones its placeholders $6i+1 through $6i+6 name. */
  function BatchArgs(posts: seq<PostData>, forum: string, thread: int, insertTime: nat): (r: seq<Arg>)
    ensures |r| == 6 * |posts|
    ensures forall i :: 0 <= i < |posts| ==> r[6 * i..6 * i + 6] == RowArgs(posts[i], forum, thread, insertTime)
    decreases |posts|
  {
    if |posts| == 0 then []
    else
      var n := |posts| - 1;
      var init := BatchArgs(posts[..n], forum, thread, insertTime);
      var r := init + RowArgs(posts[n], forum, thread, insertTime);
      assert forall i :: 0 <= i < n ==> r[6 * i..6 * i + 6] == init[6 * i..6 * i + 6] by {
        forall i | 0 <= i < n ensures r[6 * i..6 * i + 6] == init[6 * i..6 * i + 6] {
          assert 6 * i + 6 <= 6 * n;
        }
      }
      assert r[6 * n..6 * n + 6] == RowArgs(posts[n], forum, thread, insertTime);
      r
  }

  /** The statement text after the loop has appended `i` tuples, each followed by a comma. */
  function InsertSoFar(i: nat): string {
    if i == 0 then InsertHead else InsertHead + Join(RowTuples(i), ',') + ","
  }

  lemma {:induction false} InsertSoFarStep(i: nat)
    ensures InsertSoFar(i + 1) == InsertSoFar(i) + RowTuple(i) + ","
  {
    JoinAppend(InsertHead, RowTuples(i), RowTuple(i), ',');
  }

  lemma BatchArgsStep(posts: seq<PostData>, i: nat, forum: string, thread: int, insertTime: nat)
    requires i < |posts|
    ensures BatchArgs(posts[..i + 1], forum, thread, insertTime)
         == BatchArgs(posts[..i], forum, thread, insertTime) + RowArgs(posts[i], forum, thread, insertTime)
  {
    assert posts[..i + 1][..i] == posts[..i];
  }

  /** The statement and arguments CreatePosts sends: the tuples of all rows, comma-separated
      (of the commas the loop appends only the last is removed), and the rows' arguments in
      placeholder order. */
  method BuildInsert(forum: string, thread: int, posts: seq<PostData>, insertTime: nat)
    returns (query: string, args: seq<Arg>)
    ensures args == BatchArgs(posts, forum, thread, insertTime)
    ensures |posts| > 0 ==> query == InsertHead + Join(RowTuples(|posts|), ',') + InsertTail
    ensures |posts| == 0 ==> query == InsertHead[..|InsertHead| - 1] + InsertTail
  {
    query := InsertHead;
    args := [];
    var i := 0;
    while i < |posts|
      invariant 0 <= i <= |posts|
      invariant args == BatchArgs(posts[..i], forum, thread, insertTime)
      invariant query == InsertSoFar(i)
    {
      InsertSoFarStep(i);
      BatchArgsStep(posts, i, forum, thread, insertTime);
      query := query + RowTuple(i) + ",";
      args := args + RowArgs(posts[i], forum, thread, insertTime);
      i := i + 1;
    }
    assert posts[..i] == posts;
    if i > 0 {
      var body := InsertHead + Join(RowTuples(i), ',');
      assert query == body + ",";
      assert query[..|query| - 1] == body;
    }
    query := query[..|query| - 1] + InsertTail;
  }

  /** The posts CreatePosts builds before the store answers: one per input, in input order. */
  function PendingPosts(forum: string, thread: int, posts: seq<PostData>, insertTime: nat): seq<Post> {
    seq(|posts|, i requires 0 <= i < |posts| =>
      Post(0, posts[i].parent, posts[i].author, posts[i].message, false, forum, thread, insertTime, []))
  }

  /** The k-th returned id is scanned into the k-th pending post. */
  function AssignIds(pending: seq<Post>, ids: seq<int>): (r: seq<Post>)
    requires |ids| <= |pending|
    ensures |r| == |pending|
    ensures forall i :: 0 <= i < |pending| ==> r[i] == if i < |ids| then pending[i].(id := ids[i]) else pending[i]
  {
    seq(|pending|, i requires 0 <= i < |pending| => if i < |ids| then pending[i].(id := ids[i]) else pending[i])
  }

  /** What the store answers to the INSERT. `Rejected` is an error from sending or preparing
      the statement, the only kind the query call itself returns. A statement the database
      refuses while executing it (a later entry's unknown author, the parent trigger) reports
      only through the rows' deferred error, which is never read: the loop sees no row, so such
      a refusal is `Returned([])`. Otherwise `Returned` holds the new rows' ids in insertion
      order. */
  datatype InsertReply = Returned(ids: seq<int>) | Rejected(error: Error)

  /** `CreatePosts`: the inserted posts, one per input in input order, each with its input's
      parent, author and message, the given forum and thread, the one shared insert time, and
      the id the store returned for its row; a post whose row returned no id keeps id 0, which
      is every post when the database refused the statement on execution. An error from
      sending or preparing the statement is passed through unchanged. */
  function CreatePosts(forum: string, thread: int, posts: seq<PostData>, insertTime: nat, reply: InsertReply)
    : (r: Result<seq<Post>, Error>)
    requires reply.Returned? ==> |reply.ids| <= |posts|
    ensures reply.Rejected? ==> r == Failure(reply.error)
    ensures reply.Returned? ==> r.Success? && |r.value| == |posts|
    ensures r.Success? ==> forall i :: 0 <= i < |posts| ==>
      && r.value[i].parent == posts[i].parent
      && r.value[i].author == posts[i].author
      && r.value[i].message == posts[i].message
      && r.value[i].forum == forum
      && r.value[i].thread == thread
      && r.value[i].created == insertTime
      && !r.value[i].isEdited
    ensures r.Success? ==> forall i :: 0 <= i < |reply.ids| ==> r.value[i].id == reply.ids[i]
    ensures r.Success? ==> forall i :: |reply.ids| <= i < |posts| ==> r.value[i].id == 0
  {
    match reply
    case Rejected(e) => Failure(e)
    case Returned(ids) => Success(AssignIds(PendingPosts(forum, thread, posts, insertTime), ids))
  }

  // ---------------------------------------------------------------------------
  // Lookups by id
  // ---------------------------------------------------------------------------

  function FindPost(store: seq<Post>, id: int): (r: Option<Post>)
    ensures r.Some? ==> r.value in store && r.value.id == id
    ensures r.None? <==> forall i :: 0 <= i < |store| ==> store[i].id != id
  {
    FindFirst(store, (p: Post) => p.id == id)
  }

  /** `CheckParentPost`: the thread of the parent post. A missing parent is reported with the
      raw no-rows error, not the not-found sentinel. */
  function CheckParentPost(store: seq<Post>, parent: int): (r: Result<int, Error>)
    ensures r.Failure? <==> forall i :: 0 <= i < |store| ==> store[i].id != parent
    ensures r.Failure? ==> r.error == NoRows && !IsNotFound(r.error)
    ensures r.Success? ==> exists p :: p in store && p.id == parent && p.thread == r.value
  {
    match FindPost(store, parent)
    case Some(p) => Success(p.thread)
    case None => Failure(NoRows)
  }

  // ---------------------------------------------------------------------------
  // Listings: filter, order, limit
  // ---------------------------------------------------------------------------

  /** `SELECT ... WHERE match ORDER BY o LIMIT n`: at most `n` matching rows, ordered, and the
      first ones in that order: every matching row left out comes after every row returned,
      and when fewer than `n` come back, none was left out. */
  function Listing(store: seq<Post>, keep: Post -> bool, o: Order, desc: bool, n: nat): (page: seq<Post>)
    ensures |page| <= n
    ensures forall p :: p in page ==> p in store && keep(p)
    ensures |page| < n ==> forall p :: p in store && keep(p) ==> p in page
    ensures multiset(page) <= multiset(store)
    ensures Ordered(o, desc, page)
    ensures forall p, q :: p in store && keep(p) && p !in page && q in page ==> Precedes(o, desc, q, p)
  {
    var matching := Filter(store, keep);
    FilterMembers(store, keep);
    FilterMultiset(store, keep);
    var arranged := Arrange(o, desc, matching);
    TakeOrdered(o, desc, arranged, n);
    var page := Take(arranged, n);
    assert |page| < n ==> page == arranged;
    page
  }

  // ---------------------------------------------------------------------------
  // GetPostsFlat
  // ---------------------------------------------------------------------------

  /** The WHERE clause of the flat listing: the thread, and with a cursor the ids strictly past it. */
  predicate FlatMatch(thread: int, since: int, desc: bool, p: Post) {
    && p.thread == thread
    && (since == -1 || (if desc then p.id < since else p.id > since))
  }

  /** `GetPostsFlat`: the first `limit` posts of the thread past the cursor, ordered by
      (created, id) in the requested direction, no row more often than the store holds it.
      LIMIT is passed verbatim, so 0 returns nothing. PostgreSQL rejects a negative LIMIT only
      when it executes the statement; that error reaches nothing but the rows' deferred error,
      which is never read, so the loop sees no row and the page is empty with no error. */
  function GetPostsFlat(store: seq<Post>, thread: int, since: int, desc: bool, limit: int)
    : (page: seq<Post>)
    ensures limit < 0 ==> page == []
    ensures limit >= 0 ==> |page| <= limit
    ensures forall p :: p in page ==> p in store && FlatMatch(thread, since, desc, p)
    ensures multiset(page) <= multiset(store)
    ensures since != -1 ==> forall p :: p in page ==> p.id != since
    ensures 0 <= |page| < limit ==> forall p :: p in store && FlatMatch(thread, since, desc, p) ==> p in page
    ensures Ordered(ByCreated, desc, page)
    ensures forall p, q :: p in store && FlatMatch(thread, since, desc, p) && p !in page && q in page
              ==> Precedes(ByCreated, desc, q, p)
  {
    if limit < 0 then []
    else Listing(store, p => FlatMatch(thread, since, desc, p), ByCreated, desc, limit)
  }

  // ---------------------------------------------------------------------------
  // GetPostsTree
  // ---------------------------------------------------------------------------

  /** The cursor subquery `(SELECT path FROM posts WHERE id = since)`; None is SQL NULL. */
  function SincePath(store: seq<Post>, since: int): Option<seq<int>> {
    match FindPost(store, since)
    case Some(p) => Some(p.path)
    case None => None
  }

  /** The WHERE clause of the tree listing: the thread, and with a cursor the paths strictly
      past the cursor's path. A cursor that names no post compares with NULL and admits nothing. */
  predicate TreeMatch(thread: int, since: int, desc: bool, cursor: Option<seq<int>>, p: Post) {
    && p.thread == thread
    && (since == -1 || (cursor.Some? && (if desc then PathLt(p.path, cursor.value) else PathLt(cursor.value, p.path))))
  }

  /** `GetPostsTree`: the posts of the thread past the cursor, in path order (ties by id), or
      the reverse, no row more often than the store holds it. `LIMIT NULLIF(limit, 0)` makes 0
      mean no limit; a negative limit fails only on execution, and as in the flat listing that
      error is never read, so the page is empty. */
  function GetPostsTree(store: seq<Post>, thread: int, since: int, desc: bool, limit: int)
    : (page: seq<Post>)
    ensures limit < 0 ==> page == []
    ensures limit > 0 ==> |page| <= limit
    ensures var cursor := SincePath(store, since);
      forall p :: p in page ==> p in store && TreeMatch(thread, since, desc, cursor, p)
    ensures multiset(page) <= multiset(store)
    ensures var cursor := SincePath(store, since);
      (limit == 0 || 0 <= |page| < limit) ==>
        forall p :: p in store && TreeMatch(thread, since, desc, cursor, p) ==> p in page
    ensures Ordered(ByPath, desc, page)
    ensures var cursor := SincePath(store, since);
      forall p, q :: p in store && TreeMatch(thread, since, desc, cursor, p) && p !in page && q in page
        ==> Precedes(ByPath, desc, q, p)
  {
    if limit < 0 then []
    else
      var cursor := SincePath(store, since);
      var bound := if limit == 0 then |store| + 1 else limit;
      Listing(store, p => TreeMatch(thread, since, desc, cursor, p), ByPath, desc, bound)
  }

  // ---------------------------------------------------------------------------
  // GetPostsParentTree
  // ---------------------------------------------------------------------------

  /** The cursor subquery `(SELECT path[1] FROM posts WHERE id = since)`; None is SQL NULL. */
  function SinceRoot(store: seq<Post>, since: int): Option<int> {
    match FindPost(store, since)
    case Some(p) => if |p.path| > 0 then Some(p.path[0]) else None
    case None => None
  }

  /** The WHERE clause of the root subquery: top-level posts of the thread, and with a cursor
      those whose branch root is strictly past the cursor's branch root. */
  predicate RootMatch(thread: int, since: int, desc: bool, sinceRoot: Option<int>, p: Post) {
    && p.thread == thread
    && p.parent == 0
    && (since == -1 ||
        (sinceRoot.Some? && |p.path| > 0 &&
         (if desc then p.path[0] < sinceRoot.value else p.path[0] > sinceRoot.value)))
  }

  /** The root subquery: at most `limit` matching top-level posts, the first by id in the
      requested direction. */
  function BranchRoots(store: seq<Post>, thread: int, since: int, desc: bool, limit: nat): (roots: seq<Post>)
    ensures |roots| <= limit
    ensures forall p :: p in roots ==> p in store && RootMatch(thread, since, desc, SinceRoot(store, since), p)
    ensures |roots| < limit ==>
      forall p :: p in store && RootMatch(thread, since, desc, SinceRoot(store, since), p) ==> p in roots
    ensures multiset(roots) <= multiset(store)
    ensures Ordered(ById, desc, roots)
    ensures forall p, q :: p in store && RootMatch(thread, since, desc, SinceRoot(store, since), p) && p !in roots && q in roots
                         ==> Precedes(ById, desc, q, p)
  {
    var sinceRoot := SinceRoot(store, since);
    Listing(store, p => RootMatch(thread, since, desc, sinceRoot, p), ById, desc, limit)
  }

  function RootIds(roots: seq<Post>): set<int> {
    set p | p in roots :: p.id
  }

  /** The posts of the chosen branches: every post whose path starts at a chosen root. */
  predicate InBranches(roots: set<int>, p: Post) {
    |p.path| > 0 && p.path[0] in roots
  }

  /** The outer ORDER BY: path order ascending; descending puts later branches first and keeps
      path order inside each branch. */
  function BranchOrder(desc: bool): Order {
    if desc then ByBranchDesc else ByPath
  }

  /** `GetPostsParentTree`: pages by branch. It picks the roots as above and returns every post
      of every chosen branch, each as often as the store holds it, so no branch is ever split
      across pages. `LIMIT $n` is passed verbatim: 0 picks no root, and a negative value fails
      only on execution, an error that is never read, so the page is empty. */
  function GetPostsParentTree(store: seq<Post>, thread: int, since: int, desc: bool, limit: int)
    : (page: seq<Post>)
    ensures limit < 0 ==> page == []
    ensures limit >= 0 ==>
      var roots := RootIds(BranchRoots(store, thread, since, desc, limit));
      && (forall p :: p in page ==> p in store && InBranches(roots, p))
      && (forall p :: p in store && InBranches(roots, p) ==> multiset(page)[p] == multiset(store)[p])
    ensures forall p :: p in page ==> |p.path| > 0
    ensures multiset(page) <= multiset(store)
    ensures Ordered(BranchOrder(desc), false, page)
  {
    if limit < 0 then []
    else
      var roots := RootIds(BranchRoots(store, thread, since, desc, limit));
      var branches := Filter(store, p => InBranches(roots, p));
      FilterMembers(store, p => InBranches(roots, p));
      FilterMultiset(store, p => InBranches(roots, p));
      Arrange(BranchOrder(desc), false, branches)
  }

  // ---------------------------------------------------------------------------
  // Path order is a pre-order walk
  // ---------------------------------------------------------------------------

  /** The store's invariant on paths: a top-level post's path is its own id, and every reply's
      path is its parent's path with its own id appended. */
  ghost predicate TreeShaped(store: seq<Post>) {
    && (forall q :: q in store && q.parent == 0 ==> q.path == [q.id])
    && (forall q, p :: q in store && p in store && q.parent != 0 && q.parent == p.id ==> q.path == p.path + [q.id])
  }

  /** `q` is reached from `p` by following `depth` parent links through the store. */
  ghost predicate Descends(store: seq<Post>, q: Post, p: Post, depth: nat)
    decreases depth
  {
    if depth == 0 then q == p
    else q.parent != 0 && exists m :: m in store && m.id == q.parent && Descends(store, m, p, depth - 1)
  }

  /** In a tree-shaped store a descendant's path extends its ancestor's, and is longer by at
      least the number of links between them. */
  lemma {:induction false} DescendantExtendsPath(store: seq<Post>, q: Post, p: Post, depth: nat)
    requires TreeShaped(store)
    requires q in store && p in store
    requires Descends(store, q, p, depth)
    ensures IsPrefix(p.path, q.path)
    ensures |q.path| >= |p.path| + depth
    decreases depth
  {
    if depth > 0 {
      var m :| m in store && m.id == q.parent && Descends(store, m, p, depth - 1);
      DescendantExtendsPath(store, m, p, depth - 1);
      assert q.path == m.path + [q.id];
      assert q.path[..|p.path|] == m.path[..|p.path|];
    }
  }

  /** In a listing ordered by path (or by branch, then path, with every path non-empty), the
      posts whose path extends a post's path form one run that starts right after that post. */
  lemma {:induction false} SubtreesContiguous(o: Order, s: seq<Post>)
    requires o == ByPath || o == ByBranchDesc
    requires Ordered(o, false, s)
    requires o == ByBranchDesc ==> forall i :: 0 <= i < |s| ==> |s[i].path| > 0
    ensures forall i, j, k :: 0 <= i < j <= k < |s| && IsPrefix(s[i].path, s[k].path) ==> IsPrefix(s[i].path, s[j].path)
    ensures forall i, j :: 0 <= i < |s| && 0 <= j < |s| && IsPrefix(s[i].path, s[j].path) && s[i].path != s[j].path ==> i < j
  {
    forall i, j, k | 0 <= i < j <= k < |s| && IsPrefix(s[i].path, s[k].path)
      ensures IsPrefix(s[i].path, s[j].path)
    {
      var a, b, c := KeyOf(o, s[i]), KeyOf(o, s[j]), KeyOf(o, s[k]);
      assert KeyLeq(a, b);
      if j < k {
        assert KeyLeq(b, c);
      }
      if |s[i].path| > 0 {
        assert s[k].path[0] == s[i].path[0];
        assert a.major == b.major;
        PrefixBetween(s[i].path, s[j].path, s[k].path);
      }
    }
    forall i, j | 0 <= i < |s| && 0 <= j < |s| && IsPrefix(s[i].path, s[j].path) && s[i].path != s[j].path
      ensures i < j
    {
      PrefixPrecedes(s[i].path, s[j].path);
      if j < i {
        var a, b := KeyOf(o, s[j]), KeyOf(o, s[i]);
        assert KeyLeq(a, b);
        if |s[i].path| > 0 {
          assert s[j].path[0] == s[i].path[0];
        }
        PathLtAsymmetric(s[i].path, s[j].path);
      }
    }
  }

  /** In a listing in path order drawn from a tree-shaped store, a descendant of a listed post
      comes after it, and every post between the two is in the same subtree. */
  lemma {:induction false} DescendantsFollow(store: seq<Post>, page: seq<Post>, i: nat, k: nat, d: nat)
    requires TreeShaped(store)
    requires forall p :: p in page ==> p in store
    requires Ordered(ByPath, false, page)
    requires i < |page| && k < |page| && d > 0 && Descends(store, page[k], page[i], d)
    ensures i < k
    ensures forall j :: i < j <= k ==> IsPrefix(page[i].path, page[j].path)
  {
    DescendantExtendsPath(store, page[k], page[i], d);
    SubtreesContiguous(ByPath, page);
  }

  /** The full tree listing of a thread (no cursor, ascending, no limit) is a pre-order walk: it
      holds exactly the thread's posts, and every descendant of a listed post (by parent links)
      is listed after it, with only that post's subtree in between. */
  lemma {:induction false} TreeListingIsPreOrder(store: seq<Post>, thread: int)
    requires TreeShaped(store)
    ensures var page := GetPostsTree(store, thread, -1, false, 0);
      && (forall p :: p in page <==> p in store && p.thread == thread)
      && (forall i, k, d: nat :: 0 <= i < |page| && 0 <= k < |page| && d > 0 && Descends(store, page[k], page[i], d)
            ==> i < k && forall j :: i < j <= k ==> IsPrefix(page[i].path, page[j].path))
  {
    var page := GetPostsTree(store, thread, -1, false, 0);
    assert forall p :: p in page ==> p in store;
    forall i, k, d: nat | 0 <= i < |page| && 0 <= k < |page| && d > 0 && Descends(store, page[k], page[i], d)
      ensures i < k && forall j :: i < j <= k ==> IsPrefix(page[i].path, page[j].path)
    {
      DescendantsFollow(store, page, i, k, d);
    }
  }

  /** A parent-tree page keeps each subtree contiguous too, in either direction. */
  lemma {:induction false} ParentTreePageKeepsSubtreesTogether(store: seq<Post>, thread: int, since: int, desc: bool, limit: int)
    ensures var page := GetPostsParentTree(store, thread, since, desc, limit);
      && (forall i, j, k :: 0 <= i < j <= k < |page| && IsPrefix(page[i].path, page[k].path)
            ==> IsPrefix(page[i].path, page[j].path))
      && (forall i, j :: 0 <= i < |page| && 0 <= j < |page| && IsPrefix(page[i].path, page[j].path) && page[i].path != page[j].path
            ==> i < j)
  {
    var page := GetPostsParentTree(store, thread, since, desc, limit);
    assert forall i :: 0 <= i < |page| ==> page[i] in page;
    SubtreesContiguous(BranchOrder(desc), page);
  }

  // ---------------------------------------------------------------------------
  // GetPostDetails
  // ---------------------------------------------------------------------------

  /** A post with the related objects the caller asked for. */
  datatype PostDetails = PostDetails(post: Post, author: Option<User>, thread: Option<Thread>, forum: Option<Forum>)

  /** The join behind `related=user`: the post's author. */
  function PostAuthor(store: Store, id: int): Result<User, Error> {
    match FindPost(store.posts, id)
    case None => Failure(NotFoundError())
    case Some(p) =>
      match FindFirst(store.users, (u: User) => u.nickname == p.author)
      case Some(u) => Success(u)
      case None => Failure(NotFoundError())
  }

  /** The join behind `related=thread`: the post's thread. */
  function PostThread(store: Store, id: int): Result<Thread, Error> {
    match FindPost(store.posts, id)
    case None => Failure(NotFoundError())
    case Some(p) =>
      match FindFirst(store.threads, (t: Thread) => t.id == p.thread)
      case Some(t) => Success(t)
      case None => Failure(NotFoundError())
  }

  /** The join behind `related=forum`: the post's forum. */
  function PostForum(store: Store, id: int): Result<Forum, Error> {
    match FindPost(store.posts, id)
    case None => Failure(NotFoundError())
    case Some(p) =>
      match FindFirst(store.forums, (f: Forum) => f.slug == p.forum)
      case Some(f) => Success(f)
      case None => Failure(NotFoundError())
  }

  /** The related objects gathered so far. */
  datatype Related = Related(author: Option<User>, thread: Option<Thread>, forum: Option<Forum>)

  /** The loop over the `related` tokens: each known token attaches its object, the first
      failing lookup aborts, unknown tokens are skipped. */
  function Attach(store: Store, id: int, tokens: seq<string>, acc: Related): (r: Result<Related, Error>)
    ensures r.Success? ==> (r.value.author.Some? <==> acc.author.Some? || "user" in tokens)
    ensures r.Success? ==> (r.value.thread.Some? <==> acc.thread.Some? || "thread" in tokens)
    ensures r.Success? ==> (r.value.forum.Some? <==> acc.forum.Some? || "forum" in tokens)
    ensures r.Success? <==>
      && ("user" in tokens ==> PostAuthor(store, id).Success?)
      && ("thread" in tokens ==> PostThread(store, id).Success?)
      && ("forum" in tokens ==> PostForum(store, id).Success?)
    ensures r.Success? && "user" in tokens ==> r.value.author == Some(PostAuthor(store, id).value)
    ensures r.Success? && "thread" in tokens ==> r.value.thread == Some(PostThread(store, id).value)
    ensures r.Success? && "forum" in tokens ==> r.value.forum == Some(PostForum(store, id).value)
    ensures r.Success? && "user" !in tokens ==> r.value.author == acc.author
    ensures r.Success? && "thread" !in tokens ==> r.value.thread == acc.thread
    ensures r.Success? && "forum" !in tokens ==> r.value.forum == acc.forum
    ensures r.Failure? ==> IsNotFound(r.error)
    decreases |tokens|
  {
    if |tokens| == 0 then Success(acc)
    else
      var token := tokens[0];
      assert tokens == [token] + tokens[1..];
      if token == "user" then
        match PostAuthor(store, id)
        case Failure(e) => Failure(e)
        case Success(u) => Attach(store, id, tokens[1..], acc.(author := Some(u)))
      else if token == "thread" then
        match PostThread(store, id)
        case Failure(e) => Failure(e)
        case Success(t) => Attach(store, id, tokens[1..], acc.(thread := Some(t)))
      else if token == "forum" then
        match PostForum(store, id)
        case Failure(e) => Failure(e)
        case Success(f) => Attach(store, id, tokens[1..], acc.(forum := Some(f)))
      else
        Attach(store, id, tokens[1..], acc)
  }

  /** `GetPostDetails`: splits `related` on commas, attaches the author, thread and forum for
      the tokens "user", "thread" and "forum" (ignoring every other token), then fetches the
      post itself. Any failing lookup yields the not-found error and no details. */
  function GetPostDetails(store: Store, id: int, related: string): (r: Result<PostDetails, Error>)
    ensures var tokens := Split(related, ',');
      r.Success? <==>
        && FindPost(store.posts, id).Some?
        && ("user" in tokens ==> PostAuthor(store, id).Success?)
        && ("thread" in tokens ==> PostThread(store, id).Success?)
        && ("forum" in tokens ==> PostForum(store, id).Success?)
    ensures r.Success? ==> r.value.post == FindPost(store.posts, id).value
    ensures r.Success? ==> (r.value.author.Some? <==> "user" in Split(related, ','))
    ensures r.Success? ==> (r.value.thread.Some? <==> "thread" in Split(related, ','))
    ensures r.Success? ==> (r.value.forum.Some? <==> "forum" in Split(related, ','))
    ensures r.Failure? ==> IsNotFound(r.error)
  {
    match Attach(store, id, Split(related, ','), Related(None, None, None))
    case Failure(e) => Failure(e)
    case Success(rel) =>
      match FindPost(store.posts, id)
      case None => Failure(NotFoundError())
      case Some(p) => Success(PostDetails(p, rel.author, rel.thread, rel.forum))
  }

  // ---------------------------------------------------------------------------
  // GetPostDetails as written
  // ---------------------------------------------------------------------------

  /** What the store answers to each of the three join queries as written: they read from
      `posts` but qualify its columns with `post`, a name their FROM clause never declares, so
      the statement is rejected before any row is looked at. */
  const MissingAlias: Error := StoreFailure("missing FROM-clause entry for table \"post\"")

  /** Whether a token asks for a related object. */
  predicate IsRelatedToken(token: string) {
    token == "user" || token == "thread" || token == "forum"
  }

  /** The token loop as written: the first token asking for a related object runs its join
      query, which fails, and the failure is wrapped and returned. */
  function AttachAsWritten(tokens: seq<string>): (r: Option<Error>)
    ensures r.Some? <==> exists i :: 0 <= i < |tokens| && IsRelatedToken(tokens[i])
    ensures r.Some? ==> r.value == MissingAlias
    decreases |tokens|
  {
    if |tokens| == 0 then None
    else if IsRelatedToken(tokens[0]) then WrapErr(Some(MissingAlias))
    else
      var r := AttachAsWritten(tokens[1..]);
      assert forall i :: 1 <= i < |tokens| ==> tokens[i] == tokens[1..][i - 1];
      r
  }

  /** `GetPostDetails` as written: any related token makes it fail with the store's error,
      which is not the not-found sentinel; without one it returns the bare post. */
  function GetPostDetailsAsWritten(store: Store, id: int, related: string): (r: Result<PostDetails, Error>)
    ensures (exists i :: 0 <= i < |Split(related, ',')| && IsRelatedToken(Split(related, ',')[i])) ==>
      r == Failure(MissingAlias) && !IsNotFound(r.error)
    ensures (forall i :: 0 <= i < |Split(related, ',')| ==> !IsRelatedToken(Split(related, ',')[i])) ==>
      r == GetPostDetails(store, id, related)
  {
    match AttachAsWritten(Split(related, ','))
    case Some(e) => Failure(e)
    case None =>
      match FindPost(store.posts, id)
      case None => Failure(NotFoundError())
      case Some(p) => Success(PostDetails(p, None, None, None))
  }

  /** A post by a registered author: asking for its author succeeds with the intended join
      and fails as written. */
  lemma AsWrittenDetailsFailForExistingAuthor()
    ensures var store := Store([User("ann", "", "", "")], [], [], [Post(1, 0, "ann", "", false, "f", 1, 0, [1])], map[]);
      && GetPostDetails(store, 1, "user").Success?
      && GetPostDetails(store, 1, "user").value.author == Some(User("ann", "", "", ""))
      && GetPostDetailsAsWritten(store, 1, "user") == Failure(MissingAlias)
  {
    var store := Store([User("ann", "", "", "")], [], [], [Post(1, 0, "ann", "", false, "f", 1, 0, [1])], map[]);
    assert Split("user", ',') == ["user"];
    assert "user" in Split("user", ',');
    assert IsRelatedToken(Split("user", ',')[0]);
    assert PostAuthor(store, 1).Success?;
  }
}

=== FILE: seqs.dfy ===
/** Generic sequence helpers shared by the store models: first match, filter, prefix, reversal. */
module Seqs {
  import opened Wrappers

  /** The first element satisfying `f`, as a single-row lookup returns its first row. */
  function FindFirst<T(==)>(s: seq<T>, f: T -> bool): (r: Option<T>)
    ensures r.Some? ==> r.value in s && f(r.value)
    ensures r.None? <==> forall i :: 0 <= i < |s| ==> !f(s[i])
    ensures r.Some? ==> exists i :: 0 <= i < |s| && s[i] == r.value && forall j :: 0 <= j < i ==> !f(s[j])
    decreases |s|
  {
    if |s| == 0 then None
    else if f(s[0]) then Some(s[0])
    else
      var r := FindFirst(s[1..], f);
      if r.Some? then
        var i :| 0 <= i < |s[1..]| && s[1..][i] == r.value && forall j :: 0 <= j < i ==> !f(s[1..][j]);
        assert s[i + 1] == r.value;
        assert forall j :: 0 <= j < i + 1 ==> !f(s[j]) by {
          forall j | 0 <= j < i + 1 ensures !f(s[j]) {
            if j > 0 { assert s[j] == s[1..][j - 1]; }
          }
        }
        r
      else r
  }

  /** The elements satisfying `f`, in their original order. */
  function Filter<T(==)>(s: seq<T>, f: T -> bool): (r: seq<T>)
    ensures |r| <= |s|
    ensures forall i :: 0 <= i < |r| ==> r[i] in s && f(r[i])
    ensures forall i :: 0 <= i < |s| && f(s[i]) ==> s[i] in r
    decreases |s|
  {
    if |s| == 0 then []
    else if f(s[0]) then [s[0]] + Filter(s[1..], f)
    else Filter(s[1..], f)
  }

  /** Filtering keeps each kept element exactly as often as the input holds it, and adds none. */
  lemma {:induction false} FilterMultiset<T>(s: seq<T>, f: T -> bool)
    ensures multiset(Filter(s, f)) <= multiset(s)
    ensures forall x :: x in s && f(x) ==> multiset(Filter(s, f))[x] == multiset(s)[x]
    decreases |s|
  {
    if |s| > 0 {
      var t := s[1..];
      var rest := Filter(t, f);
      FilterMultiset(t, f);
      assert s == [s[0]] + t;
      assert multiset(s) == multiset{s[0]} + multiset(t);
      if f(s[0]) {
        assert Filter(s, f) == [s[0]] + rest;
        assert multiset(Filter(s, f)) == multiset{s[0]} + multiset(rest);
      } else {
        assert Filter(s, f) == rest;
      }
      forall x | x in s && f(x) ensures multiset(Filter(s, f))[x] == multiset(s)[x] {
        if x !in t {
          assert multiset(rest)[x] <= multiset(t)[x] == 0;
        }
      }
    }
  }

  /** Membership in a filtered sequence is exactly membership in the input plus the predicate. */
  lemma FilterMembers<T>(s: seq<T>, f: T -> bool)
    ensures forall x :: x in Filter(s, f) <==> x in s && f(x)
  {
    forall x | x in s && f(x) ensures x in Filter(s, f) {
      var i :| 0 <= i < |s| && s[i] == x;
    }
  }

  /** At most the first `n` elements: SQL LIMIT n on an ordered row set. */
  function Take<T(==)>(s: seq<T>, n: nat): (r: seq<T>)
    ensures |r| == if n < |s| then n else |s|
    ensures r == s[..|r|]
    ensures forall i :: 0 <= i < |r| ==> r[i] in s
    ensures multiset(r) <= multiset(s)
  {
    if n < |s| then
      assert s == s[..n] + s[n..];
      s[..n]
    else s
  }

  function Reverse<T>(s: seq<T>): (r: seq<T>)
    ensures |r| == |s|
    ensures forall i :: 0 <= i < |s| ==> r[i] == s[|s| - 1 - i]
    ensures multiset(r) == multiset(s)
    decreases |s|
  {
    if |s| == 0 then []
    else
      assert s == [s[0]] + s[1..];
      Reverse(s[1..]) + [s[0]]
  }
}

=== FILE: sorting.dfy ===
/** The ORDER BY clauses of the post queries as sort keys, and an insertion sort that realises
    them: the result is ordered and is a permutation of its input. */
module Sorting {
  import opened Entities
  import opened Paths
  import opened Seqs

  /** The orderings the post queries ask the store for. */
  datatype Order =
    | ByCreated     // ORDER BY created, id
    | ByPath        // ORDER BY path, id
    | ByBranchDesc  // ORDER BY path[1] DESC, path, id
    | ById          // ORDER BY id

  /** A major integer, then a path, then a minor integer, compared in that order. */
  datatype SortKey = SortKey(major: int, path: seq<int>, minor: int)

  function KeyOf(o: Order, p: Post): SortKey {
    match o
    case ByCreated => SortKey(p.created, [], p.id)
    case ByPath => SortKey(0, p.path, p.id)
    case ByBranchDesc => SortKey(if |p.path| > 0 then -p.path[0] else 0, p.path, p.id)
    case ById => SortKey(p.id, [], 0)
  }

  predicate KeyLeq(a: SortKey, b: SortKey) {
    || a.major < b.major
    || (a.major == b.major && (PathLt(a.path, b.path) || (a.path == b.path && a.minor <= b.minor)))
  }

  lemma KeyLeqTotal(a: SortKey, b: SortKey)
    ensures KeyLeq(a, b) || KeyLeq(b, a)
  {
    PathLtTotal(a.path, b.path);
  }

  lemma KeyLeqTransitive(a: SortKey, b: SortKey, c: SortKey)
    requires KeyLeq(a, b) && KeyLeq(b, c)
    ensures KeyLeq(a, c)
  {
    if PathLt(a.path, b.path) && PathLt(b.path, c.path) {
      PathLtTransitive(a.path, b.path, c.path);
    }
  }

  /** Two keys the same major value compares equal on: their paths are in path order. */
  lemma KeyLeqSameMajor(a: SortKey, b: SortKey)
    requires KeyLeq(a, b) && a.major == b.major
    ensures PathLe(a.path, b.path)
  {
  }

  /** `x` may come before `y` in the requested direction. */
  predicate Precedes(o: Order, desc: bool, x: Post, y: Post) {
    if desc then KeyLeq(KeyOf(o, y), KeyOf(o, x)) else KeyLeq(KeyOf(o, x), KeyOf(o, y))
  }

  predicate Ordered(o: Order, desc: bool, s: seq<Post>) {
    forall i, j :: 0 <= i < j < |s| ==> Precedes(o, desc, s[i], s[j])
  }

  lemma PrependOrdered(o: Order, p: Post, s: seq<Post>)
    requires Ordered(o, false, s)
    requires |s| > 0 ==> KeyLeq(KeyOf(o, p), KeyOf(o, s[0]))
    ensures Ordered(o, false, [p] + s)
  {
    var r := [p] + s;
    forall i, j | 0 <= i < j < |r| ensures Precedes(o, false, r[i], r[j]) {
      if i == 0 && j > 1 {
        KeyLeqTransitive(KeyOf(o, p), KeyOf(o, s[0]), KeyOf(o, s[j - 1]));
      }
    }
  }

  function Insert(o: Order, p: Post, s: seq<Post>): (r: seq<Post>)
    requires Ordered(o, false, s)
    ensures Ordered(o, false, r)
    ensures multiset(r) == multiset(s) + multiset{p}
    decreases |s|
  {
    if |s| == 0 then [p]
    else if KeyLeq(KeyOf(o, p), KeyOf(o, s[0])) then
      PrependOrdered(o, p, s);
      [p] + s
    else
      assert s == [s[0]] + s[1..];
      var rest := Insert(o, p, s[1..]);
      KeyLeqTotal(KeyOf(o, p), KeyOf(o, s[0]));
      assert KeyLeq(KeyOf(o, s[0]), KeyOf(o, rest[0])) by {
        assert rest[0] in multiset(rest);
        if rest[0] != p {
          assert rest[0] in multiset(s[1..]);
          var k :| 0 <= k < |s[1..]| && s[1..][k] == rest[0];
          assert Precedes(o, false, s[0], s[k + 1]);
        }
      }
      PrependOrdered(o, s[0], rest);
      [s[0]] + rest
  }

  /** Ascending sort by the key of `o`. */
  function SortBy(o: Order, s: seq<Post>): (r: seq<Post>)
    ensures Ordered(o, false, r)
    ensures multiset(r) == multiset(s)
    decreases |s|
  {
    if |s| == 0 then []
    else
      assert s == [s[0]] + s[1..];
      Insert(o, s[0], SortBy(o, s[1..]))
  }

  lemma ReverseOrdered(o: Order, up: seq<Post>)
    requires Ordered(o, false, up)
    ensures Ordered(o, true, Reverse(up))
  {
    var r := Reverse(up);
    forall i, j | 0 <= i < j < |r| ensures Precedes(o, true, r[i], r[j]) {
      assert r[i] == up[|up| - 1 - i] && r[j] == up[|up| - 1 - j];
    }
  }

  /** The rows ordered by `o`, ascending or descending. A descending order is the reverse of
      the ascending one, which is one of the tie orders the store may pick. */
  function Arrange(o: Order, desc: bool, s: seq<Post>): (r: seq<Post>)
    ensures Ordered(o, desc, r)
    ensures multiset(r) == multiset(s)
    ensures |r| == |s|
    ensures forall x :: x in r <==> x in s
  {
    assert forall x :: x in s <==> x in multiset(s);
    var up := SortBy(o, s);
    assert |up| == |multiset(up)|;
    if desc then
      ReverseOrdered(o, up);
      Reverse(up)
    else up
  }

  /** LIMIT on an ordered row set keeps the order, and every row it cuts off comes after every
      row it keeps. */
  lemma TakeOrdered(o: Order, desc: bool, t: seq<Post>, n: nat)
    requires Ordered(o, desc, t)
    ensures Ordered(o, desc, Take(t, n))
    ensures forall x, y :: x in t && x !in Take(t, n) && y in Take(t, n) ==> Precedes(o, desc, y, x)
  {
    var page := Take(t, n);
    forall x, y | x in t && x !in page && y in page ensures Precedes(o, desc, y, x) {
      var j :| 0 <= j < |t| && t[j] == x;
      var i :| 0 <= i < |page| && page[i] == y;
      assert t[i] == y;
    }
  }
}

=== FILE: text.dfy ===
/** The library text routines the core relies on: Go's `strconv.Atoi` and `%d` formatting,
    `strings.Split` on a one-character separator, and PostgreSQL's `TRIM`. */
module Text {
  import opened Wrappers

  const MinInt64: int := -0x8000_0000_0000_0000
  const MaxInt64: int := 0x7FFF_FFFF_FFFF_FFFF

  predicate InInt64(n: int) {
    MinInt64 <= n <= MaxInt64
  }

  // ---------------------------------------------------------------------------
  // Decimal digits
  // ---------------------------------------------------------------------------

  predicate IsDigit(c: char) {
    '0' <= c <= '9'
  }

  predicate AllDigits(s: string) {
    forall i :: 0 <= i < |s| ==> IsDigit(s[i])
  }

  function DigitChar(d: nat): (c: char)
    requires d < 10
    ensures IsDigit(c)
  {
    "0123456789"[d]
  }

  function DigitValue(c: char): (d: nat)
    requires IsDigit(c)
    ensures d < 10
  {
    (c as int - '0' as int) as nat
  }

  lemma DigitRoundTrip(d: nat)
    requires d < 10
    ensures DigitValue(DigitChar(d)) == d
  {
  }

  /** The value of a string of decimal digits, most significant first. */
  function ParseDigits(s: string): nat
    requires AllDigits(s)
    decreases |s|
  {
    if |s| == 0 then 0 else ParseDigits(s[..|s| - 1]) * 10 + DigitValue(s[|s| - 1])
  }

  /** `%d` of a non-negative number: its shortest decimal spelling. */
  function FormatNat(n: nat): (s: string)
    ensures 1 <= |s|
    ensures AllDigits(s)
    ensures |s| > 1 ==> s[0] != '0'
    decreases n
  {
    if n < 10 then [DigitChar(n)] else FormatNat(n / 10) + [DigitChar(n % 10)]
  }

  /** `%d` (and `strconv.Itoa`) of any integer: a minus sign for negatives, then the digits. */
  function FormatInt(n: int): (s: string)
    ensures 1 <= |s|
    ensures n < 0 <==> s[0] == '-'
    ensures n >= 0 ==> AllDigits(s)
    ensures n < 0 ==> AllDigits(s[1..])
  {
    if n < 0 then "-" + FormatNat(-n) else FormatNat(n)
  }

  lemma {:induction false} ParseFormatNat(n: nat)
    ensures ParseDigits(FormatNat(n)) == n
    decreases n
  {
    if n < 10 {
      DigitRoundTrip(n);
    } else {
      var s := FormatNat(n);
      assert s[..|s| - 1] == FormatNat(n / 10);
      ParseFormatNat(n / 10);
      DigitRoundTrip(n % 10);
    }
  }

  /** A non-empty string with one leading `+` or `-` removed, if it has one. */
  function Unsigned(s: string): (d: string)
    requires |s| > 0
    ensures s[0] == '+' || s[0] == '-' ==> s == [s[0]] + d
    ensures !(s[0] == '+' || s[0] == '-') ==> d == s
  {
    if s[0] == '+' || s[0] == '-' then s[1..] else s
  }

  /** The value a sign and a run of digits spell. */
  function SignedValue(s: string): int
    requires |s| > 0 && AllDigits(Unsigned(s))
  {
    var magnitude: int := ParseDigits(Unsigned(s));
    if s[0] == '-' then -magnitude else magnitude
  }

  /** `strconv.Atoi` on a 64-bit platform: an optional sign, at least one ASCII digit, nothing
      else, and a value that fits in 64 bits; anything else is a parse error (None). */
  function Atoi(s: string): (r: Option<int>)
    ensures r.Some? <==> (&& |s| > 0 && |Unsigned(s)| > 0 && AllDigits(Unsigned(s))
                         && InInt64(SignedValue(s)))
    ensures r.Some? ==> r.value == SignedValue(s)
    ensures r.Some? ==> InInt64(r.value)
    ensures r.Some? ==> 1 <= |s| && (IsDigit(s[0]) || s[0] == '+' || s[0] == '-')
    ensures r.Some? && s[0] == '-' ==> r.value <= 0
    ensures |s| == 0 ==> r.None?
  {
    if |s| == 0 then None
    else
      var digits := if s[0] == '+' || s[0] == '-' then s[1..] else s;
      if |digits| == 0 || !AllDigits(digits) then None
      else
        var magnitude: int := ParseDigits(digits);
        var v: int := if s[0] == '-' then -magnitude else magnitude;
        if InInt64(v) then Some(v) else None
  }

  /** Every 64-bit integer printed with `%d` parses back to itself: `Atoi` is the inverse of
      `FormatInt` on the 64-bit range. */
  lemma {:induction false} AtoiFormatInt(n: int)
    requires InInt64(n)
    ensures Atoi(FormatInt(n)) == Some(n)
  {
    var s := FormatInt(n);
    var m: nat := if n < 0 then -n else n;
    assert Unsigned(s) == FormatNat(m) by {
      if n < 0 {
        assert s[1..] == FormatNat(m);
      } else {
        assert IsDigit(s[0]);
      }
    }
    ParseFormatNat(m);
    assert ParseDigits(Unsigned(s)) == m;
  }

  // ---------------------------------------------------------------------------
  // Split and Join on a one-character separator
  // ---------------------------------------------------------------------------

  /** `strings.Join(parts, string(sep))`. */
  function Join(parts: seq<string>, sep: char): string
    decreases |parts|
  {
    if |parts| == 0 then ""
    else if |parts| == 1 then parts[0]
    else parts[0] + [sep] + Join(parts[1..], sep)
  }

  lemma {:induction false} JoinSnoc(parts: seq<string>, last: string, sep: char)
    requires |parts| >= 1
    ensures Join(parts + [last], sep) == Join(parts, sep) + [sep] + last
    decreases |parts|
  {
    if |parts| == 1 {
      assert parts + [last] == [parts[0], last];
    } else {
      assert (parts + [last])[1..] == parts[1..] + [last];
      JoinSnoc(parts[1..], last, sep);
    }
  }

  /** Appending a piece and a separator to a separator-terminated join extends the join by one
      piece. */
  lemma {:induction false} JoinAppend(head: string, parts: seq<string>, last: string, sep: char)
    ensures |parts| >= 1 ==> head + Join(parts + [last], sep) + [sep] == head + Join(parts, sep) + [sep] + last + [sep]
    ensures |parts| == 0 ==> head + Join(parts + [last], sep) + [sep] == head + last + [sep]
  {
    if |parts| >= 1 {
      JoinSnoc(parts, last, sep);
      var j := Join(parts, sep);
      assert head + (j + [sep] + last) + [sep] == head + j + [sep] + last + [sep];
    } else {
      assert parts + [last] == [last];
    }
  }

  /** Position of the first occurrence of `c` in `s`. */
  function IndexOf(s: string, c: char): (i: nat)
    requires c in s
    ensures i < |s| && s[i] == c && c !in s[..i]
    decreases |s|
  {
    if s[0] == c then 0
    else
      var j := IndexOf(s[1..], c);
      assert s[..j + 1] == [s[0]] + s[1..][..j];
      j + 1
  }

  /** `strings.Split(s, string(sep))`: the pieces between separators, at least one (the empty
      string splits into one empty piece), none containing the separator, and joining them
      back with the separator gives `s`. */
  function Split(s: string, sep: char): (parts: seq<string>)
    ensures |parts| >= 1
    ensures forall i :: 0 <= i < |parts| ==> sep !in parts[i]
    ensures Join(parts, sep) == s
    decreases |s|
  {
    if sep !in s then [s]
    else
      var i := IndexOf(s, sep);
      var rest := Split(s[i + 1..], sep);
      assert s == s[..i] + [sep] + s[i + 1..];
      [s[..i]] + rest
  }

  /** Split cuts at the first separator. */
  lemma SplitAtFirst(s: string, sep: char, k: nat)
    requires k < |s| && s[k] == sep && sep !in s[..k]
    ensures Split(s, sep) == [s[..k]] + Split(s[k + 1..], sep)
  {
    var i := IndexOf(s, sep);
    assert forall j :: 0 <= j < i ==> s[j] != sep by {
      assert forall j :: 0 <= j < i ==> s[..i][j] == s[j];
    }
    assert forall j :: 0 <= j < k ==> s[j] != sep by {
      assert forall j :: 0 <= j < k ==> s[..k][j] == s[j];
    }
    assert i == k;
  }

  /** The converse round trip: splitting a join of separator-free pieces recovers the pieces. */
  lemma {:induction false} SplitJoin(parts: seq<string>, sep: char)
    requires |parts| >= 1
    requires forall i :: 0 <= i < |parts| ==> sep !in parts[i]
    ensures Split(Join(parts, sep), sep) == parts
    decreases |parts|
  {
    if |parts| == 1 {
    } else {
      var s := Join(parts, sep);
      var t := Join(parts[1..], sep);
      var k := |parts[0]|;
      assert s == parts[0] + [sep] + t;
      assert s[..k] == parts[0];
      assert s[k + 1..] == t;
      SplitAtFirst(s, sep, k);
      assert forall j :: 0 <= j < |parts| - 1 ==> parts[1..][j] == parts[j + 1];
      SplitJoin(parts[1..], sep);
      assert parts == [parts[0]] + parts[1..];
    }
  }

  // ---------------------------------------------------------------------------
  // PostgreSQL TRIM (default characters: the space)
  // ---------------------------------------------------------------------------

  predicate AllSpaces(s: string) {
    forall i :: 0 <= i < |s| ==> s[i] == ' '
  }

  /** No space at either end. */
  predicate Trimmed(s: string) {
    |s| == 0 || (s[0] != ' ' && s[|s| - 1] != ' ')
  }

  function TrimLeft(s: string): (r: string)
    ensures |r| == 0 || r[0] != ' '
    ensures exists k :: 0 <= k <= |s| && r == s[k..] && AllSpaces(s[..k])
    decreases |s|
  {
    if |s| > 0 && s[0] == ' ' then
      var r := TrimLeft(s[1..]);
      var k :| 0 <= k <= |s[1..]| && r == s[1..][k..] && AllSpaces(s[1..][..k]);
      assert r == s[k + 1..] && AllSpaces(s[..k + 1]) by {
        assert s[..k + 1] == [' '] + s[1..][..k];
      }
      r
    else
      assert s == s[0..] && s[..0] == "";
      s
  }

  function TrimRight(s: string): (r: string)
    ensures |r| == 0 || r[|r| - 1] != ' '
    ensures exists k :: 0 <= k <= |s| && r == s[..k] && AllSpaces(s[k..])
    decreases |s|
  {
    if |s| > 0 && s[|s| - 1] == ' ' then
      var r := TrimRight(s[..|s| - 1]);
      var k :| 0 <= k <= |s| - 1 && r == s[..|s| - 1][..k] && AllSpaces(s[..|s| - 1][k..]);
      assert r == s[..k] && AllSpaces(s[k..]) by {
        assert s[k..] == s[..|s| - 1][k..] + [' '];
      }
      r
    else
      assert s == s[..|s|];
      s
  }

  /** `TRIM(s)`: `s` without its leading and trailing spaces. */
  function Trim(s: string): (r: string)
    ensures Trimmed(r)
    ensures |r| == 0 <==> AllSpaces(s)
  {
    TrimEmptyOnlyForSpaces(s);
    TrimRight(TrimLeft(s))
  }

  lemma TrimEmptyOnlyForSpaces(s: string)
    ensures |TrimRight(TrimLeft(s))| == 0 <==> AllSpaces(s)
  {
    var l := TrimLeft(s);
    var r := TrimRight(l);
    var a :| 0 <= a <= |s| && l == s[a..] && AllSpaces(s[..a]);
    var b :| 0 <= b <= |l| && r == l[..b] && AllSpaces(l[b..]);
    if |r| == 0 {
      assert b == 0 && |l| == 0;
      assert s[..a] == s;
    } else {
      assert r[0] == s[a];
    }
  }

  lemma {:induction false} TrimLeftPadded(pre: string, t: string)
    requires AllSpaces(pre)
    requires |t| == 0 || t[0] != ' '
    ensures TrimLeft(pre + t) == t
    decreases |pre|
  {
    if |pre| > 0 {
      assert (pre + t)[1..] == pre[1..] + t;
      TrimLeftPadded(pre[1..], t);
    } else {
      assert pre + t == t;
    }
  }

  lemma {:induction false} TrimRightPadded(t: string, post: string)
    requires AllSpaces(post)
    requires |t| == 0 || t[|t| - 1] != ' '
    ensures TrimRight(t + post) == t
    decreases |post|
  {
    if |post| > 0 {
      assert (t + post)[..|t + post| - 1] == t + post[..|post| - 1];
      TrimRightPadded(t, post[..|post| - 1]);
    } else {
      assert t + post == t;
    }
  }

  /** `Trim` is characterised by padding: surrounding a string that has no edge spaces with any
      runs of spaces, then trimming, gives the string back. */
  lemma {:induction false} TrimPadded(pre: string, t: string, post: string)
    requires AllSpaces(pre) && AllSpaces(post)
    requires |t| > 0 && Trimmed(t)
    ensures Trim(pre + t + post) == t
  {
    assert pre + t + post == pre + (t + post);
    TrimLeftPadded(pre, t + post);
    TrimRightPadded(t, post);
  }
}

=== FILE: thread_service.dfy ===
/** The thread service (internal/services/thread.go): resolving a slug-or-id path segment,
    thread creation with its slug-conflict rule, thread details, and voting with the
    thread's vote counter kept equal to the sum of the voices. */
module ThreadService {
  import opened Wrappers
  import opened Errors
  import opened Entities
  import opened Text
  import opened UserStore
  import opened ForumStore
  import opened ThreadStore
  import opened VoteStore

  // ---------------------------------------------------------------------------
  // Slug-or-id resolution
  // ---------------------------------------------------------------------------

  function ThreadByIdMessage(id: int): string {
    "Can't find thread forum by id: " + FormatInt(id)
  }

  function ThreadBySlugMessage(slug: string): string {
    "Can't find thread forum by slug: " + slug
  }

  function UserMessage(nickname: string): string {
    "Can't find user by nickname: " + nickname
  }

  function NotFoundResponse(message: string): (r: Response)
    ensures r.code == StatusNotFound && r.data == ErrorMessage(message)
  {
    Response(ErrorMessage(message), StatusNotFound)
  }

  datatype Resolution = Resolved(thread: Thread) | Unresolved(response: Response)

  /** A path segment that `strconv.Atoi` accepts names a thread by id; anything else names it
      by slug. A thread that is not there is answered with 404 and a message naming the key. */
  function ResolveThread(threads: seq<Thread>, slugOrID: string): (r: Resolution)
    ensures Atoi(slugOrID).Some? ==>
      && (r.Resolved? <==> exists i :: 0 <= i < |threads| && threads[i].id == Atoi(slugOrID).value)
      && (r.Resolved? ==> r.thread in threads && r.thread.id == Atoi(slugOrID).value)
      && (r.Unresolved? ==> r.response == NotFoundResponse(ThreadByIdMessage(Atoi(slugOrID).value)))
    ensures Atoi(slugOrID).None? ==>
      && (r.Resolved? <==> exists i :: 0 <= i < |threads| && threads[i].slug == slugOrID)
      && (r.Resolved? ==> r.thread in threads && r.thread.slug == slugOrID)
      && (r.Unresolved? ==> r.response == NotFoundResponse(ThreadBySlugMessage(slugOrID)))
  {
    match Atoi(slugOrID)
    case Some(id) =>
      (match GetForumThreadByID(threads, id)
       case Success(t) => Resolved(t)
       case Failure(_) => Unresolved(NotFoundResponse(ThreadByIdMessage(id))))
    case None =>
      (match GetForumThreadBySlug(threads, slugOrID)
       case Success(t) => Resolved(t)
       case Failure(_) => Unresolved(NotFoundResponse(ThreadBySlugMessage(slugOrID))))
  }

  /** A thread is always found by the decimal spelling of its id, and by its slug when that
      slug is not itself a number. */
  lemma ResolveByIdOrSlug(threads: seq<Thread>, t: Thread)
    requires t in threads && InInt64(t.id)
    ensures ResolveThread(threads, FormatInt(t.id)).Resolved?
    ensures ResolveThread(threads, FormatInt(t.id)).thread.id == t.id
    ensures Atoi(t.slug).None? ==> ResolveThread(threads, t.slug).Resolved?
  {
    AtoiFormatInt(t.id);
  }

  /** `GetThreadDetails`: the thread with 200, or the 404 answer. */
  function GetThreadDetails(threads: seq<Thread>, slugOrID: string): (r: Response)
    ensures r.code == StatusOK <==> ResolveThread(threads, slugOrID).Resolved?
    ensures r.code == StatusOK ==> r.data == ThreadBody(ResolveThread(threads, slugOrID).thread)
    ensures r.code != StatusOK ==> r.code == StatusNotFound && r.data.ErrorMessage?
  {
    match ResolveThread(threads, slugOrID)
    case Resolved(t) => Response(ThreadBody(t), StatusOK)
    case Unresolved(response) => response
  }

  // ---------------------------------------------------------------------------
  // CreateForumThread
  // ---------------------------------------------------------------------------

  datatype ThreadRequest = ThreadRequest(forum: string, title: string, author: string, message: string, slug: string, created: nat)

  /** The answer and the threads table afterwards. */
  datatype ThreadOutcome = ThreadOutcome(response: Response, threads: seq<Thread>)

  /** `CreateForumThread`: 404 when the author or the forum is missing; 409 with the existing
      thread when a non-empty slug is taken; otherwise the thread is stored under the author's
      and the forum's canonical names and returned with 201. Only the last case changes the
      table. */
  function CreateForumThread(store: Store, req: ThreadRequest, newId: int): (r: ThreadOutcome)
    ensures r.response.code != StatusCreated ==> r.threads == store.threads
    ensures GetUserByNickname(store.users, req.author).Failure? ==>
      r.response == NotFoundResponse(UserMessage(req.author))
    ensures GetUserByNickname(store.users, req.author).Success? && GetForumBySlug(store.forums, req.forum).Failure? ==>
      r.response == NotFoundResponse(ThreadBySlugMessage(req.forum))
    ensures (&& req.slug != ""
             && GetForumThreadBySlug(store.threads, req.slug).Success?
             && GetUserByNickname(store.users, req.author).Success?
             && GetForumBySlug(store.forums, req.forum).Success?) ==>
      r.response == Response(ThreadBody(GetForumThreadBySlug(store.threads, req.slug).value), StatusConflict)
    ensures r.response.code == StatusCreated <==>
      && GetUserByNickname(store.users, req.author).Success?
      && GetForumBySlug(store.forums, req.forum).Success?
      && (req.slug == "" || GetForumThreadBySlug(store.threads, req.slug).Failure?)
    ensures r.response.code == StatusCreated ==>
      && r.response.data.ThreadBody?
      && r.threads == store.threads + [r.response.data.thread]
      && r.response.data.thread.id == newId
      && r.response.data.thread.votes == 0
      && r.response.data.thread.slug == req.slug
      && r.response.data.thread.author == GetUserByNickname(store.users, req.author).value.nickname
      && r.response.data.thread.forum == GetForumBySlug(store.forums, req.forum).value.slug
  {
    match GetUserByNickname(store.users, req.author)
    case Failure(_) => ThreadOutcome(NotFoundResponse(UserMessage(req.author)), store.threads)
    case Success(user) =>
      match GetForumBySlug(store.forums, req.forum)
      case Failure(_) => ThreadOutcome(NotFoundResponse(ThreadBySlugMessage(req.forum)), store.threads)
      case Success(forum) =>
        var existing := if req.slug != "" then GetForumThreadBySlug(store.threads, req.slug) else Failure(NotFoundError());
        match existing
        case Success(t) => ThreadOutcome(Response(ThreadBody(t), StatusConflict), store.threads)
        case Failure(_) =>
          var row := Thread(0, req.title, user.nickname, forum.slug, req.message, 0, req.slug, req.created);
          var ins := ThreadStore.CreateForumThread(store.threads, row, newId);
          ThreadOutcome(Response(ThreadBody(ins.thread), StatusCreated), ins.threads)
  }

  /** After a slugged create, the slug names a thread of the table. */
  lemma SlugTakenAfterCreate(store: Store, req: ThreadRequest, newId: int)
    requires req.slug != ""
    requires CreateForumThread(store, req, newId).response.code == StatusCreated
    ensures GetForumThreadBySlug(CreateForumThread(store, req, newId).threads, req.slug).Success?
  {
    var first := CreateForumThread(store, req, newId);
    var t := first.response.data.thread;
    assert first.threads[|store.threads|] == t && t.slug == req.slug;
  }

  /** Creating the same thread twice: the second attempt is answered 409 with the first one. */
  lemma {:induction false} SecondCreateConflicts(store: Store, req: ThreadRequest, newId: int, nextId: int)
    requires req.slug != ""
    requires CreateForumThread(store, req, newId).response.code == StatusCreated
    ensures var first := CreateForumThread(store, req, newId);
      var second := CreateForumThread(store.(threads := first.threads), req, nextId);
      second.response.code == StatusConflict && second.threads == first.threads
  {
    SlugTakenAfterCreate(store, req, newId);
  }

  // ---------------------------------------------------------------------------
  // UpdateVote
  // ---------------------------------------------------------------------------

  datatype VoteRequest = VoteRequest(nickname: string, voice: int)

  /** The answer and the votes ledger afterwards. */
  datatype VoteOutcome = VoteOutcome(response: Response, votes: Ledger)

  /** The part of `UpdateVote` after the thread and the user are known: update an existing
      vote (counting twice the voice when it changed) or record a first vote (counting the
      voice once), and answer with the thread and its adjusted counter. */
  function CastVote(votes: Ledger, thread: Thread, nickname: string, voice: int): (r: Result<VoteOutcome, Error>)
    ensures r.Success?
    ensures r.value.votes == votes[(nickname, thread.id) := voice]
    ensures r.value.response.code == StatusOK
    ensures r.value.response.data == ThreadBody(thread.(votes := thread.votes +
      if (nickname, thread.id) !in votes then voice
      else if votes[(nickname, thread.id)] != voice then 2 * voice
      else 0))
  {
    match VoteExists(votes, nickname, thread.id)
    case Failure(e) => Failure(e)
    case Success(exists_) =>
      if exists_ then
        var u := VoteStore.UpdateVote(votes, thread.id, nickname, voice);
        var delta := if u.changed then 2 * voice else 0;
        assert !u.changed ==> votes == votes[(nickname, thread.id) := voice];
        Success(VoteOutcome(Response(ThreadBody(thread.(votes := thread.votes + delta)), StatusOK), u.ledger))
      else
        match CreateVote(votes, Vote(nickname, thread.id, voice))
        case Failure(e) => Failure(e)
        case Success(l) =>
          Success(VoteOutcome(Response(ThreadBody(thread.(votes := thread.votes + voice)), StatusOK), l))
  }

  /** `UpdateVote`: 404 when the thread or the user is missing, with the ledger untouched;
      otherwise the vote is stored under the user's canonical nickname and the thread is
      answered with 200. */
  function UpdateVote(store: Store, slugOrID: string, req: VoteRequest): (r: Result<VoteOutcome, Error>)
    ensures r.Success?
    ensures ResolveThread(store.threads, slugOrID).Unresolved? ==>
      r.value == VoteOutcome(ResolveThread(store.threads, slugOrID).response, store.votes)
    ensures ResolveThread(store.threads, slugOrID).Resolved? && GetUserByNickname(store.users, req.nickname).Failure? ==>
      r.value == VoteOutcome(NotFoundResponse(UserMessage(req.nickname)), store.votes)
    ensures ResolveThread(store.threads, slugOrID).Resolved? && GetUserByNickname(store.users, req.nickname).Success? ==>
      var thread := ResolveThread(store.threads, slugOrID).thread;
      var key := (GetUserByNickname(store.users, req.nickname).value.nickname, thread.id);
      && r.value.votes == store.votes[key := req.voice]
      && r.value.response.code == StatusOK
      && r.value.response.data.ThreadBody?
      && r.value.response.data.thread.id == thread.id
  {
    match ResolveThread(store.threads, slugOrID)
    case Unresolved(response) => Success(VoteOutcome(response, store.votes))
    case Resolved(thread) =>
      match GetUserByNickname(store.users, req.nickname)
      case Failure(_) => Success(VoteOutcome(NotFoundResponse(UserMessage(req.nickname)), store.votes))
      case Success(user) => CastVote(store.votes, thread, user.nickname, req.voice)
  }

  /** Voices are +1 or -1. */
  predicate ValidVoices(votes: Ledger) {
    forall k :: k in votes ==> votes[k] == 1 || votes[k] == -1
  }

  /** The counter the service answers with stays the sum of the thread's voices: if the stored
      counter was the sum before, the answered counter is the sum of the ledger after. */
  lemma {:induction false} CastVoteKeepsTally(votes: Ledger, thread: Thread, nickname: string, voice: int)
    requires voice == 1 || voice == -1
    requires ValidVoices(votes)
    requires thread.votes == Tally(votes, thread.id)
    ensures var r := CastVote(votes, thread, nickname, voice).value;
      r.response.data.thread.votes == Tally(r.votes, thread.id) && ValidVoices(r.votes)
  {
    var key := (nickname, thread.id);
    TallyAfterStore(votes, key, voice, thread.id);
  }

  /** The same for the whole request. */
  lemma {:induction false} UpdateVoteKeepsTally(store: Store, slugOrID: string, req: VoteRequest)
    requires req.voice == 1 || req.voice == -1
    requires ValidVoices(store.votes)
    requires forall t :: t in store.threads ==> t.votes == Tally(store.votes, t.id)
    ensures var r := UpdateVote(store, slugOrID, req).value;
      ValidVoices(r.votes) && (r.response.code == StatusOK ==> r.response.data.thread.votes == Tally(r.votes, r.response.data.thread.id))
  {
    match ResolveThread(store.threads, slugOrID)
    case Unresolved(_) =>
    case Resolved(thread) =>
      match GetUserByNickname(store.users, req.nickname)
      case Failure(_) =>
      case Success(user) => CastVoteKeepsTally(store.votes, thread, user.nickname, req.voice);
  }

  /** Voting again with the same voice leaves the ledger as it is and the counter as stored. */
  lemma RepeatedVoteIsIdempotent(votes: Ledger, thread: Thread, nickname: string, voice: int)
    ensures var first := CastVote(votes, thread, nickname, voice).value;
      var second := CastVote(first.votes, thread, nickname, voice).value;
      second.votes == first.votes && second.response.data.thread == thread
  {
  }

  /** Changing a vote answers the stored counter moved by twice the new voice. */
  lemma ChangedVoteMovesCounterByTwice(votes: Ledger, thread: Thread, nickname: string, voice: int)
    requires (nickname, thread.id) in votes && votes[(nickname, thread.id)] != voice
    ensures CastVote(votes, thread, nickname, voice).value.response.data.thread.votes == thread.votes + 2 * voice
  {
  }
}

=== FILE: thread_store.dfy ===
/** The thread repository's lookups and insert (internal/db/thread.go), plus the lookup by id
    the services call, which is modelled the same way. */
module ThreadStore {
  import opened Wrappers
  import opened Errors
  import opened Entities
  import opened Seqs

  /** `GetForumThreadBySlug`: the thread with that slug, or not-found. */
  function GetForumThreadBySlug(threads: seq<Thread>, slug: string): (r: Result<Thread, Error>)
    ensures r.Success? ==> r.value in threads && r.value.slug == slug
    ensures r.Failure? <==> forall i :: 0 <= i < |threads| ==> threads[i].slug != slug
    ensures r.Failure? ==> IsNotFound(r.error)
  {
    match FindFirst(threads, (t: Thread) => t.slug == slug)
    case Some(t) => Success(t)
    case None => Failure(NotFoundError())
  }

  /** `GetForumThreadByID`: the thread with that id, or not-found. */
  function GetForumThreadByID(threads: seq<Thread>, id: int): (r: Result<Thread, Error>)
    ensures r.Success? ==> r.value in threads && r.value.id == id
    ensures r.Failure? <==> forall i :: 0 <= i < |threads| ==> threads[i].id != id
    ensures r.Failure? ==> IsNotFound(r.error)
  {
    match FindFirst(threads, (t: Thread) => t.id == id)
    case Some(t) => Success(t)
    case None => Failure(NotFoundError())
  }

  /** The table after an insert and the row it returned. */
  datatype Inserted = Inserted(threads: seq<Thread>, thread: Thread)

  /** `CreateForumThread`: inserts the thread under the id the store assigns, with no votes
      yet, and returns the stored row. When the assigned id is fresh, as a serial id is, the
      lookup by that id finds the inserted row. */
  function CreateForumThread(threads: seq<Thread>, t: Thread, newId: int): (r: Inserted)
    ensures r.threads == threads + [r.thread]
    ensures r.thread == t.(id := newId, votes := 0)
    ensures GetForumThreadByID(r.threads, newId).Success?
    ensures (forall u :: u in threads ==> u.id != newId) ==> GetForumThreadByID(r.threads, newId) == Success(r.thread)
  {
    var row := t.(id := newId, votes := 0);
    assert (threads + [row])[|threads|] == row;
    Inserted(threads + [row], row)
  }
}

=== FILE: user_store.dfy ===
/** The user repository (internal/db/user.go): single-row lookups, the email-or-nickname
    conflict query, and the partial profile update. */
module UserStore {
  import opened Wrappers
  import opened Errors
  import opened Entities
  import opened Seqs
  import opened Text

  /** `GetUserByNickname`: the user with that nickname, or not-found. */
  function GetUserByNickname(users: seq<User>, nickname: string): (r: Result<User, Error>)
    ensures r.Success? ==> r.value in users && r.value.nickname == nickname
    ensures r.Failure? <==> forall i :: 0 <= i < |users| ==> users[i].nickname != nickname
    ensures r.Failure? ==> IsNotFound(r.error)
  {
    match FindFirst(users, (u: User) => u.nickname == nickname)
    case Some(u) => Success(u)
    case None => Failure(NotFoundError())
  }

  /** `GetUserByEmail`: the user with that email, or not-found. */
  function GetUserByEmail(users: seq<User>, email: string): (r: Result<User, Error>)
    ensures r.Success? ==> r.value in users && r.value.email == email
    ensures r.Failure? <==> forall i :: 0 <= i < |users| ==> users[i].email != email
    ensures r.Failure? ==> IsNotFound(r.error)
  {
    match FindFirst(users, (u: User) => u.email == email)
    case Some(u) => Success(u)
    case None => Failure(NotFoundError())
  }

  /** `GetUsersByEmailOrNickname`: exactly the users holding the email or the nickname, in
      store order; none is an empty list, not an error. */
  function GetUsersByEmailOrNickname(users: seq<User>, email: string, nickname: string): (r: seq<User>)
    ensures forall u :: u in r <==> u in users && (u.email == email || u.nickname == nickname)
    ensures |r| <= |users|
  {
    var keep := (u: User) => u.email == email || u.nickname == nickname;
    FilterMembers(users, keep);
    Filter(users, keep)
  }

  /** `COALESCE(NULLIF(TRIM(x), ''), current)`: the trimmed new value, unless it trims to nothing. */
  function MergeField(x: string, current: string): (r: string)
    ensures AllSpaces(x) ==> r == current
    ensures !AllSpaces(x) ==> |r| > 0 && Trimmed(r) && r == Trim(x)
  {
    var t := Trim(x);
    if t == "" then current else t
  }

  /** A new value is stored as it reads between its edge spaces, whatever the current value was. */
  lemma MergeFieldPadded(pre: string, t: string, post: string, current: string)
    requires AllSpaces(pre) && AllSpaces(post)
    requires |t| > 0 && Trimmed(t)
    ensures MergeField(pre + t + post, current) == t
  {
    TrimPadded(pre, t, post);
  }

  /** The same update applied twice leaves what it left the first time. */
  lemma {:induction false} MergeFieldIdempotent(x: string, current: string)
    ensures MergeField(x, MergeField(x, current)) == MergeField(x, current)
  {
  }

  /** Re-sending a value already stored (one without edge spaces) changes nothing. */
  lemma {:induction false} MergeFieldResend(current: string)
    requires Trimmed(current)
    ensures MergeField(current, current) == current
  {
    if |current| > 0 {
      TrimPadded("", current, "");
      assert "" + current + "" == current;
    }
  }

  /** One row after the update's SET clause: the nickname is the key and never changes. */
  function MergeUser(stored: User, req: User): (r: User)
    ensures r.nickname == stored.nickname
    ensures r.fullname == MergeField(req.fullname, stored.fullname)
    ensures r.about == MergeField(req.about, stored.about)
    ensures r.email == MergeField(req.email, stored.email)
  {
    User(stored.nickname, MergeField(req.fullname, stored.fullname),
         MergeField(req.about, stored.about), MergeField(req.email, stored.email))
  }

  /** The table after an update and the profile the caller gets back. */
  datatype Updated = Updated(users: seq<User>, user: User)

  /** `UpdateUser`: every row keyed by the request's nickname gets each of fullname, about and
      email replaced by the trimmed request value when that is not blank; nothing else changes.
      The answer is the request's nickname with the updated row's fields; a nickname with no
      row is not-found and the table is untouched. */
  function UpdateUser(users: seq<User>, req: User): (r: Result<Updated, Error>)
    ensures r.Failure? <==> forall i :: 0 <= i < |users| ==> users[i].nickname != req.nickname
    ensures r.Failure? ==> IsNotFound(r.error)
    ensures r.Success? ==> |r.value.users| == |users|
    ensures r.Success? ==> forall i :: 0 <= i < |users| ==>
      r.value.users[i] == if users[i].nickname == req.nickname then MergeUser(users[i], req) else users[i]
    ensures r.Success? ==> r.value.user.nickname == req.nickname
    ensures r.Success? ==> exists i :: 0 <= i < |users| && users[i].nickname == req.nickname
                                      && r.value.user == MergeUser(users[i], req)
  {
    match GetUserByNickname(users, req.nickname)
    case Failure(e) => Failure(e)
    case Success(stored) =>
      var after := seq(|users|, i requires 0 <= i < |users| =>
        if users[i].nickname == req.nickname then MergeUser(users[i], req) else users[i]);
      Success(Updated(after, MergeUser(stored, req)))
  }

  /** A request whose fields are all blank leaves a row as it was. */
  lemma BlankRequestKeepsUser(stored: User, req: User)
    requires AllSpaces(req.fullname) && AllSpaces(req.about) && AllSpaces(req.email)
    ensures MergeUser(stored, req) == stored
  {
  }

  /** An update whose fields are all blank changes no row. */
  lemma {:induction false} BlankUpdateChangesNothing(users: seq<User>, req: User)
    requires AllSpaces(req.fullname) && AllSpaces(req.about) && AllSpaces(req.email)
    ensures UpdateUser(users, req).Success? ==> UpdateUser(users, req).value.users == users
  {
    if UpdateUser(users, req).Success? {
      var after := UpdateUser(users, req).value.users;
      forall i | 0 <= i < |users| ensures after[i] == users[i] {
        BlankRequestKeepsUser(users[i], req);
      }
    }
  }
}

=== FILE: vote_store.dfy ===
/** The votes repository (internal/db/vote.go) over the votes table, modelled as a ledger
    from (nickname, thread) to voice, and the sum of a thread's voices that the thread's
    `votes` counter is meant to equal. */
module VoteStore {
  import opened Wrappers
  import opened Errors
  import opened Entities

  type Key = (string, int)

  /** The error the store raises when a second vote for the same (nickname, thread) is inserted. */
  const DuplicateVote: Error := StoreFailure("duplicate key value violates unique constraint")

  // ---------------------------------------------------------------------------
  // VoteExists
  // ---------------------------------------------------------------------------

  /** `SELECT voice FROM votes WHERE nickname = $1 AND thread = $2` as a single-row query. */
  function SelectVoice(ledger: Ledger, nickname: string, thread: int): (r: Result<int, Error>)
    ensures r.Success? <==> (nickname, thread) in ledger
    ensures r.Success? ==> r.value == ledger[(nickname, thread)]
    ensures r.Failure? ==> r.error == NoRows
  {
    if (nickname, thread) in ledger then Success(ledger[(nickname, thread)]) else Failure(NoRows)
  }

  /** How `VoteExists` reads the single-row answer: a row means true, no rows means false, and
      any other error is passed on. */
  function ExistsFromRow(row: Result<int, Error>): (r: Result<bool, Error>)
    ensures r == Success(true) <==> row.Success?
    ensures r == Success(false) <==> row == Failure(NoRows)
    ensures r.Failure? <==> row.Failure? && row.error != NoRows
    ensures r.Failure? ==> r.error == row.error
  {
    match row
    case Success(_) => Success(true)
    case Failure(e) => if e == NoRows then Success(false) else Failure(e)
  }

  /** `VoteExists`: whether the nickname has voted on the thread. It only reads the ledger. */
  function VoteExists(ledger: Ledger, nickname: string, thread: int): (r: Result<bool, Error>)
    ensures r == Success((nickname, thread) in ledger)
  {
    ExistsFromRow(SelectVoice(ledger, nickname, thread))
  }

  // ---------------------------------------------------------------------------
  // UpdateVote and CreateVote
  // ---------------------------------------------------------------------------

  /** The ledger after a statement, and how many rows it changed. */
  datatype Exec = Exec(ledger: Ledger, rowsAffected: nat)

  /** `UPDATE votes SET voice = $3 WHERE thread = $1 AND nickname = $2 AND voice != $3`:
      rewrites the one matching row when its voice differs, and touches nothing else. */
  function ExecUpdateVote(ledger: Ledger, thread: int, nickname: string, voice: int): (r: Exec)
    ensures r.rowsAffected <= 1
    ensures r.rowsAffected == 1 <==> (nickname, thread) in ledger && ledger[(nickname, thread)] != voice
    ensures r.ledger.Keys == ledger.Keys
    ensures (nickname, thread) in ledger ==> r.ledger[(nickname, thread)] == voice
    ensures forall k :: k in ledger && k != (nickname, thread) ==> r.ledger[k] == ledger[k]
  {
    var key := (nickname, thread);
    if key in ledger && ledger[key] != voice then Exec(ledger[key := voice], 1) else Exec(ledger, 0)
  }

  /** What `UpdateVote` reports: the ledger afterwards and whether exactly one row changed. */
  datatype Update = Update(ledger: Ledger, changed: bool)

  /** `UpdateVote`: true iff the nickname had a different voice on the thread, which is now
      replaced; with the same voice (or no vote) it reports false and the ledger is as before. */
  function UpdateVote(ledger: Ledger, thread: int, nickname: string, voice: int): (r: Update)
    ensures r.changed <==> (nickname, thread) in ledger && ledger[(nickname, thread)] != voice
    ensures !r.changed ==> r.ledger == ledger
    ensures r.changed ==> r.ledger == ledger[(nickname, thread) := voice]
  {
    var exec := ExecUpdateVote(ledger, thread, nickname, voice);
    Update(exec.ledger, exec.rowsAffected == 1)
  }

  /** `INSERT INTO votes (nickname, thread, voice)`: a new row, or the store's unique-key error
      when the nickname has already voted on the thread. */
  function ExecCreateVote(ledger: Ledger, vote: Vote): (r: Result<Ledger, Error>)
    ensures r.Success? <==> (vote.nickname, vote.thread) !in ledger
    ensures r.Success? ==> r.value.Keys == ledger.Keys + {(vote.nickname, vote.thread)}
    ensures r.Success? ==> r.value[(vote.nickname, vote.thread)] == vote.voice
    ensures r.Success? ==> forall k :: k in ledger ==> r.value[k] == ledger[k]
    ensures r.Failure? ==> r.error == DuplicateVote
  {
    var key := (vote.nickname, vote.thread);
    if key in ledger then Failure(DuplicateVote) else Success(ledger[key := vote.voice])
  }

  /** `CreateVote`: the insert, its error passed through `wrapErr`. */
  function CreateVote(ledger: Ledger, vote: Vote): (r: Result<Ledger, Error>)
    ensures r.Success? <==> (vote.nickname, vote.thread) !in ledger
    ensures r.Success? ==> r.value == ledger[(vote.nickname, vote.thread) := vote.voice]
    ensures r.Failure? ==> Some(r.error) == WrapErr(Some(DuplicateVote)) && !IsNotFound(r.error)
  {
    match ExecCreateVote(ledger, vote)
    case Success(l) => Success(l)
    case Failure(e) => Failure(WrapErr(Some(e)).value)
  }

  // ---------------------------------------------------------------------------
  // The sum of a thread's voices
  // ---------------------------------------------------------------------------

  /** The sum of the voices stored under `keys`. */
  ghost function SumOver(ledger: Ledger, keys: set<Key>): int
    requires keys <= ledger.Keys
    decreases keys
  {
    if keys == {} then 0
    else
      var k :| k in keys;
      ledger[k] + SumOver(ledger, keys - {k})
  }

  /** The keys of the votes cast on `thread`. */
  ghost function ThreadKeys(ledger: Ledger, thread: int): set<Key> {
    set k | k in ledger && k.1 == thread
  }

  /** The sum of all voices cast on `thread`: what its `votes` counter should hold. */
  ghost function Tally(ledger: Ledger, thread: int): int {
    SumOver(ledger, ThreadKeys(ledger, thread))
  }

  /** The sum does not depend on which key is taken out first. */
  lemma {:induction false} SumOverRemove(ledger: Ledger, keys: set<Key>, k: Key)
    requires keys <= ledger.Keys && k in keys
    ensures SumOver(ledger, keys) == ledger[k] + SumOver(ledger, keys - {k})
    decreases keys
  {
    var j :| j in keys && SumOver(ledger, keys) == ledger[j] + SumOver(ledger, keys - {j});
    if j != k {
      SumOverRemove(ledger, keys - {j}, k);
      SumOverRemove(ledger, keys - {k}, j);
      assert keys - {j} - {k} == keys - {k} - {j};
    }
  }

  /** The sum over `keys` only sees the voices under `keys`. */
  lemma {:induction false} SumOverFrame(a: Ledger, b: Ledger, keys: set<Key>)
    requires keys <= a.Keys && keys <= b.Keys
    requires forall k :: k in keys ==> a[k] == b[k]
    ensures SumOver(a, keys) == SumOver(b, keys)
    decreases keys
  {
    if keys != {} {
      var k :| k in keys && SumOver(a, keys) == a[k] + SumOver(a, keys - {k});
      SumOverRemove(b, keys, k);
      SumOverFrame(a, b, keys - {k});
    }
  }

  /** Recording a voice for a key changes the sum of the key's thread by the new voice minus
      the old one (0 for a first vote), and leaves every other thread's sum alone. */
  lemma TallyAfterStore(ledger: Ledger, key: Key, voice: int, thread: int)
    ensures Tally(ledger[key := voice], thread) ==
      if key.1 != thread then Tally(ledger, thread)
      else if key in ledger then Tally(ledger, thread) - ledger[key] + voice
      else Tally(ledger, thread) + voice
  {
    var after := ledger[key := voice];
    var before := ThreadKeys(ledger, thread);
    if key.1 != thread {
      assert ThreadKeys(after, thread) == before;
      SumOverFrame(ledger, after, before);
    } else {
      var rest := before - {key};
      assert ThreadKeys(after, thread) - {key} == rest;
      SumOverRemove(after, ThreadKeys(after, thread), key);
      SumOverFrame(ledger, after, rest);
      if key in ledger {
        SumOverRemove(ledger, before, key);
      } else {
        assert before == rest;
      }
    }
  }

  /** Re-voting with a different voice in {-1, +1} moves the thread's sum by twice the new
      voice, which is what the service adds to the counter. */
  lemma FlipMovesTallyByTwice(ledger: Ledger, nickname: string, thread: int, voice: int)
    requires voice == 1 || voice == -1
    requires (nickname, thread) in ledger && ledger[(nickname, thread)] in {-1, 1}
    requires ledger[(nickname, thread)] != voice
    ensures Tally(UpdateVote(ledger, thread, nickname, voice).ledger, thread) == Tally(ledger, thread) + 2 * voice
  {
    TallyAfterStore(ledger, (nickname, thread), voice, thread);
  }
}

=== FILE: wrappers.dfy ===
/** Optional values and success-or-error results: the shapes of Go's nil pointers and
    `(value, error)` returns. */
module Wrappers {

  datatype Option<+T> = None | Some(value: T)

  datatype Result<+T, +E> = Success(value: T) | Failure(error: E)
}
